=== FILE: README.md ===
# The Other Roles installer — a verified model of its decision logic

The installer (`main.go`) keeps the "The Other Roles" mod for Among Us up to date. A run goes through these steps:

1. Load the user's config.
2. Find the game folder: the `--gamePath` flag, then the remembered path, then the Steam location from the registry, then a directory picker.
3. Ask the release feed for the newest tag.
4. Branch three ways on the `version.txt` marker in the game folder:
   - **No marker:** wipe every non-game file (the *cleanup*), then install.
   - **Marker equals the newest tag:** nothing is installed. The game starts at once, or the user is asked whether to start it.
   - **Marker names another version:** install over the folder without a cleanup.
5. Write the config back.

An install downloads the release archive into the game folder, unpacks it there, deletes the archive, writes the marker, and then starts the game or offers to.

The model describes all of this with pure functions over an abstract world:

- **Files.** The file system is a map from full paths (Windows separators, joined by plain concatenation, as in the program) to a file (with its content) or a directory.
- **Outside world.** Everything else the program asks of the world is an input record:
  - the config file's read outcome;
  - the two Steam registry keys;
  - the sequence of answers given to the directory picker;
  - the newest tag, or why it could not be fetched;
  - the outcomes of the download, the unpacking, the archive deletion and the marker write;
  - the yes/no answer to "Start the game now?";
  - the outcome of writing the config.
- **A run's result.** A run yields:
  - an exit status: `Completed` and `Quit` are exit 0, `Failed` is exit 1, and `WaitingForUser` means the picker is still open;
  - the final file system;
  - a trace of effects in order: cleanup, download request, unpack, archive deletion, marker write, start question, game launch, config write.

Modules, one per component of `main.go`:

- `Common` holds `Option` and `Result`.
- `Names` gives the order `ioutil.ReadDir` lists names in: byte order on UTF-8, which equals code-point order on Dafny characters. It also builds the sorted listing of a set of names.
- `FileTree` holds paths, directory entries and `os.RemoveAll`.
- `FolderCleanup` models `remove`, `cleanFolder` and `cleanup`.
- `Settings` holds the config, the flags, the autostart merge and the write-back.
- `PathResolver` models `validateGamePath`, `getGamePathAuto`, `getGamePathManual` and `getGamePath`.
- `Installer` models `downloadAndExtractRelease`, with the archive path, URL and marker construction.
- `Orchestrator` models `main`'s branch structure.

Two behaviours of the code worth knowing:

- `readConfig` falls back to defaults on every `*os.PathError`. Every error `ioutil.ReadFile` returns is one: opening the file wraps its error that way, and so does every read on the opened file. So a missing file, an unopenable file and a read that breaks off all mean "no config". Only contents that do not decode as JSON are fatal. `Settings.LoadConfig` does the same.
- When `--gamePath` is not passed, its value is the empty string. It is still validated like any other path, by checking for `\Among Us.exe`, so a game executable at the root of the current drive makes the empty path valid. A fresh install on the empty path then lists no top-level entries, because `ioutil.ReadDir("")` fails and `cleanFolder` ignores the error. Only `\BepInEx` is cleaned, and the model does the same.

## Model

| member | source | states |
|---|---|---|
| Names.SortedNames | main.go:136 | The listing `ioutil.ReadDir` returns names every entry exactly once, and no other name, in ascending byte order |
| FileTree.RemoveAll | main.go:143 | `os.RemoveAll(p)` deletes `p` and exactly the paths inside it, and leaves every other path with its old content |
| FileTree.ChildrenMember | main.go:84-93 | `exists(dir\n)` agrees with the directory listing. A name is listed in `dir` exactly when it is a single component and `dir\n` exists |
| FileTree.EntryOrInside | main.go:143 | A path is the entry `dir\n` or lies inside it exactly when it lies inside `dir` and its first component below `dir` is `n`. So deleting `dir\n` removes exactly what belongs to entry `n` |
| FolderCleanup.Remove | main.go:125-133 | `remove` deletes only the first element with the given name, and the rest keep their order. A list without that name comes back unchanged |
| FolderCleanup.RemoveNames | main.go:125-133 | On a listing without repeated names, `remove` takes out exactly the named entry: the set of names loses that name only, and the length drops by one exactly when the name was present |
| FolderCleanup.RemoveSkipped | main.go:138-140 | The first loop of `cleanFolder` leaves exactly the listed names that are not on the keep list, each still once. Keep-list names missing from the folder have no effect |
| FolderCleanup.RemoveEach | main.go:142-144 | The second loop deletes exactly the paths under `dir` whose entry is one of the remaining names. Every other path keeps its content |
| FolderCleanup.ReadDir | main.go:136 | The listing has no repeated names. When `dir` is an existing folder, its names are exactly the entries of the folder. Otherwise it is empty, as when `ioutil.ReadDir` fails on the empty path or on a file |
| FolderCleanup.CleanFolder | main.go:135-145 | `cleanFolder(dir, skip)` deletes exactly the paths inside an entry of `dir` that is not on `skip`, and nothing when `dir` cannot be listed. Everything else, including everything outside `dir`, keeps its content |
| FolderCleanup.CleanFolderChildren | main.go:135-145 | After `cleanFolder(dir, skip)` the entries of `dir` are exactly its old entries whose names are on `skip`, or all of them when `dir` cannot be listed |
| FolderCleanup.CleanFolderAnyOrder | main.go:136-144 | The result of `cleanFolder` does not depend on the order of the directory listing. Any listing of the same names, each once, gives the same file system |
| FolderCleanup.FirstPassKeepsBepInEx | main.go:148-152 | Cleaning the game folder keeps BepInEx exactly when it was there, because it is on the top-level keep list (line 28). The entries of BepInEx are unchanged, so the nested pass lists the same entries |
| FolderCleanup.InnerCleanKeepsEntries | main.go:150-153 | Cleaning inside an entry `dir\m` never changes the list of entries of `dir` |
| FolderCleanup.Cleanup | main.go:147-155 | `cleanup` only deletes. It deletes only inside the game folder, and every surviving path keeps its content |
| FolderCleanup.CleanupKeepsTopLevel | main.go:147-155 | After `cleanup` the game folder holds exactly its old entries that are on the top-level keep list, or all of them when it cannot be listed |
| FolderCleanup.CleanupKeepsBepInExConfig | main.go:147-155 | If BepInEx existed, it survives `cleanup`. If it is a folder, exactly its old entries on its keep list (`config`) remain |
| FolderCleanup.EmptyGamePathSparesRoot | main.go:136-152 | With the empty game path the top-level listing fails, so `cleanup` deletes nothing outside `\BepInEx` |
| Settings.EffectiveAutostart | main.go:282-284 | Autostart is on exactly when `--autostart=true` was passed, or when the flag was not passed and the config stores `true`. A missing value counts as `false` (line 31) |
| Settings.SavedConfig | main.go:254-280 | The config written back always records the resolved game path. Its autostart field is replaced only when the flag was passed; otherwise it keeps the loaded value |
| Settings.AutostartPersists | main.go:254-284 | A later run without the flag that reads the saved config gets the same effective autostart as the run that saved it |
| Settings.SaveIdempotent | main.go:254-284 | A flagless later run on the same game path writes back the very same config |
| Settings.LoadConfig | main.go:240-252 | A file that cannot be read, for any reason, yields the empty config. The run fails exactly when the contents do not decode. Otherwise the decoded config is returned |
| PathResolver.SteamGamePath | main.go:116 | The candidate path is the Steam install root followed by `\steamapps\common\Among Us` |
| PathResolver.ValidGamePath | main.go:84-97 | A folder is valid exactly when `<path>\Among Us.exe` exists. The empty path is checked the same way |
| PathResolver.GetGamePathAuto | main.go:99-123 | Detection succeeds exactly when the key it reads opens, holds `InstallPath`, and the candidate built from it holds the game. The key is WOW6432Node if it opens, otherwise the native key. A successful result always holds the game |
| PathResolver.AutoPrefersWow6432 | main.go:100-103 | Once the WOW6432Node key opens, the native key is never consulted, even when that key lacks `InstallPath` |
| PathResolver.AutoFallsBackToNative | main.go:100-122 | When only the native key opens and holds `InstallPath`, whatever its other values, detection succeeds exactly when the candidate built from `InstallPath` holds the game. It then returns that candidate |
| PathResolver.GetGamePathManual | main.go:50-58 | The picker loop is decided by the first answer that is either a folder holding the game or an error. Every earlier answer was a folder without the game. A folder it returns always holds the game. With no deciding answer it is still asking |
| PathResolver.GetGamePath | main.go:215-238 | A resolved path always holds the game. A valid flag path wins, then a valid remembered path. The picker's outcome is used only when automatic detection failed |
| PathResolver.ResolutionIsFirstValid | main.go:215-238 | First success wins. Resolution behaves as one picker loop whose first answers are the flag path, the remembered path and the Steam candidate. So cancelling gives a quiet exit, another picker error a fatal one, and the first valid folder is the result |
| PathResolver.StopComesFromLaterAnswer | main.go:53-57 | If the answers before the picker's all choose folders, an error that stops the loop is one of the picker's own answers |
| PathResolver.FirstStopDecides | main.go:50-58 | An error answer that comes after folders which were all rejected ends the picker loop with that error |
| PathResolver.FromPrompting | main.go:228-235 | The picker's outcome ends resolution: a cancel is the quiet exit, any other dialog error the fatal exit, a valid folder the resolved path |
| PathResolver.QuietExitOnlyOnCancel | main.go:228-233 | Resolution exits quietly only when the user cancelled the picker |
| PathResolver.SavedPathResolves | main.go:221-223 | The path saved in the config is found again by a later run whose flag path does not hold the game, provided the saved path still holds it |
| Installer.StartOrAsk | main.go:201-205 | Under autostart the game launches without a question. Otherwise the question is asked first, and the game launches exactly on "yes". The game launches at most once, as the last of these effects |
| Installer.Place | main.go:189 | Every unpacked entry lands at its relative path inside the game folder, and every folder on the way to an entry exists afterwards, created if it was missing. Every path the archive does not reach keeps its presence and content |
| Installer.ZipPath | main.go:183 | The archive is downloaded directly into the game folder, under the name `TheOtherRoles_<version>.zip` |
| Installer.ReleaseUrl | main.go:184 | The download URL is the release download prefix, then the tag, then `/TheOtherRoles.zip` |
| Installer.MarkerPath | main.go:197 | The marker is the entry `version.txt` directly inside the game folder. The same path is written after an install and checked at line 291 |
| Installer.DownloadAndExtractRelease | main.go:182-207 | The first effect is always the request for `.../releases/download/<version>/TheOtherRoles.zip` into `<gamePath>\TheOtherRoles_<version>.zip`. The install succeeds exactly when download, unpacking, archive deletion and marker write all succeed. Then the effects are request, unpack, delete, marker write, start-or-ask in that order, and the marker holds exactly `version` |
| Installer.Unpack | main.go:189-199 | Unpacking and the steps after it succeed exactly when the extraction, the deletion and the marker write do. The marker then holds `version` |
| Installer.RecordVersion | main.go:193-205 | The marker is written only after the archive is deleted, and it then holds `version` |
| Installer.ZipPathNamesVersion | main.go:183-197 | The archive lies inside the game folder and is never the marker file |
| Installer.VersionRecoverable | main.go:183-184 | Different versions never share a download URL or an archive path |
| Installer.FailedInstallKeepsMarker | main.go:186-199 | An install that fails at any step leaves the marker as it was, provided the archive carries no `version.txt` entry and no entry inside a `version.txt` folder |
| Installer.InstallStaysInside | main.go:183-197 | An install, successful or not, touches nothing outside the game folder. The archive, the unpacked entries and the marker all lie inside it |
| Installer.InstallLeavesEntries | main.go:189-197 | After a successful install the unpacked entries are in place, apart from the marker and the archive path, and the archive is gone |
| Installer.InstallKeepsOthers | main.go:182-197 | An install over the folder replaces only what the extraction reaches. Any path that the extraction, complete or broken off, neither writes nor creates a folder at, other than the archive and the marker, keeps its presence and content, whether or not the install succeeds |
| Installer.FailedInstallStopsEarly | main.go:186-206 | A failed install neither writes the marker nor launches the game |
| Installer.InstallTraceFacts | main.go:182-207 | An install never cleans up and never saves the config itself |
| Orchestrator.ExitCode | main.go:230-234 | A normal end and a cancelled picker exit with 0. Every fatal error exits with 1 |
| Orchestrator.Prepare | main.go:275-289 | Past this point the config is the one loaded, the folder is the one `getGamePath` resolved (so it holds the game), and the tag is the feed's. Every early exit changes nothing and saves nothing. A cancelled picker is a quiet exit with nothing touched, and a failed picker is a fatal exit |
| Orchestrator.Decide | main.go:291-308 | The three-way branch: no marker means a fresh install, a marker equal to the tag means up to date, and any other marker content means an update |
| Orchestrator.Proceed | main.go:291-321 | After the version check the run always ends, normally or with an error, and never quits quietly or waits. It never fails on reading or decoding the config file, which was dealt with before. Writing the config can still fail |
| Orchestrator.ProceedCompletedSavesConfig | main.go:291-321 | After the version check, a run that ends normally saved the merged config as its last effect, and the marker names the newest release |
| Orchestrator.SaveConfig | main.go:254-272 | The run completes exactly when the config could be written. Writing it is then the last effect. A failed write is fatal and adds no effect. The game folder is never touched |
| Orchestrator.Main | main.go:274-323 | A normal end is possible only after config, folder and tag were all obtained. A quiet exit leaves everything untouched |
| Orchestrator.FreshInstallCleansFirst | main.go:293-299 | With no marker, the cleanup is the first effect and the release request comes right after it. No cleanup happens later. The release is installed on the cleaned folder: the final file system is that of the install applied to `cleanup`'s result |
| Orchestrator.FreshInstallDropsOldContent | main.go:293-299 | With no marker, a path inside a top-level entry that is not kept is gone after the run, whether or not the install succeeds. The only exceptions are paths the extraction, complete or broken off, writes or creates a folder at on the way to an entry |
| Orchestrator.UpToDateSkipsInstall | main.go:308-316 | With the marker equal to the newest tag, nothing is cleaned, requested or unpacked, and the folder is unchanged. The game launches exactly when autostart is on or the user says yes. The question is asked exactly when autostart is off |
| Orchestrator.UpdateSkipsCleanup | main.go:318-321 | With a marker naming another version, no cleanup happens and the release request comes first |
| Orchestrator.UpdateKeepsOldContent | main.go:318-321 | With a marker naming another version, every old path that the extraction, complete or broken off, does not write or create a folder at, other than the archive and the marker, is still there with its old content |
| Orchestrator.RunCompletesWhenStepsSucceed | main.go:291-321 | Past the version check a run ends normally exactly when the marker is readable, the install it needs (none when up to date) succeeds, and the config is written |
| Orchestrator.CompletedRunSavesConfig | main.go:291-321 | A run that ends normally wrote the merged config as its last effect, and its marker names the newest release |
| Orchestrator.OnlyCompletedRunSavesConfig | main.go:254-321 | A run that does not end normally never writes the config |
| Orchestrator.EarlyExitChangesNothing | main.go:277-289 | Runs that stop before the version check change no file and save nothing |
| Orchestrator.CancelExitsCleanly | main.go:228-233 | A quiet exit has exit status 0, has no effects, and happens only after the user cancelled the picker |
| Orchestrator.CancelledPickerQuits | main.go:215-235 | When the flag path, the remembered path and the Steam location all fail and the user cancels the picker after rejected folders only, the run ends with `Quit`, exit status 0, and touches nothing |
| Orchestrator.QuitOnlyBeforeVersionCheck | main.go:230-233 | A quiet exit can only come from path resolution, never from a later step |
| Orchestrator.ConfigFatalOnlyOnDecode | main.go:240-252 | A run fails on its config exactly when the file was read but its contents do not decode. A file that cannot be read never stops the run |
| Orchestrator.UnreadableConfigActsAsEmpty | main.go:240-245 | A run whose config file cannot be read behaves exactly like a run whose config is empty |

## Left out

- HTTP release lookup (`getLatestVersion`): network I/O and JSON decoding. The newest tag is an input: either a tag or an error message. The panic at line 81 is not modelled: the type assertion `m["tag_name"].(string)` runs before the decode error is returned, so a missing or non-string `tag_name`, and equally a body that does not decode as JSON (which leaves `m` empty), crashes the process with exit status 2. The model ends both with an error and exit status 1.
- Downloading (`downloadFile`): network I/O. Its outcome is an input: the body, a failure before the file exists, or a copy failure that leaves a partial file.
- `unzip.New(...).Extract()`: a foreign library. Its outcome is an input: the archive's entries, or the entries written before a failure. The archive's bytes are not linked to the entries it unpacks. Missing folders on the way to an entry are created, as the extractor does before it writes a file. A file standing where such a folder belongs, which makes the real extraction fail, is the caller's to report as an extraction failure.
- Registry access: a foreign API. Each of the two Steam keys is an input: either the key's string values or "does not open".
- The `sqweek/dialog` directory picker and message boxes: foreign UI. Picker answers are a finite input sequence. When every answer is a rejected folder, the run is `WaitingForUser`, because the program would keep asking. Dialog titles and the error dialog's text are not modelled. The start question's message is modelled.
- `startGame`: a fire-and-forget process spawn. It appears only as a `LaunchedGame` effect.
- Config JSON marshalling and unmarshalling, `os.MkdirAll` and file permission modes: serialisation and file-system plumbing. The config is two optional fields. Its decode result and the write-back failure are inputs, so the JSON round trip of the config is not modelled.
- `os.Exit`, `log` and `errorExit`: modelled as the final `Status` (exit 0 or 1), not as side effects.
- `Installer.RecordVersion`: a failed marker write is modelled as leaving the marker unchanged. A real `ioutil.WriteFile` that fails after opening the file could leave it truncated.
- `Installer.FailedInstallKeepsMarker`: assumes the archive has no `version.txt` entry and no entry below `version.txt\`. An archive that carried one would overwrite the marker, or create a folder in its place, during extraction.
- Orchestrator.SaveConfig: a failed config write is modelled as leaving `config.json` unchanged. A real `ioutil.WriteFile` (line 269) opens the file with truncation, so a write that fails after opening can leave it truncated. Every later run would then fail to decode it and exit with 1 (lines 249-250).
- FileTree.RemoveAll: modelled as always succeeding. A real `os.RemoveAll` removes what it can and returns the first error, for instance on a file locked by another process, and line 143 ignores it. `CleanFolderChildren`, `CleanupKeepsTopLevel` and `CleanupKeepsBepInExConfig` hold under that assumption.
- FolderCleanup.ReadDir: the listing fails only when the folder is not an existing directory (including the empty path). Other failures that `ioutil.ReadDir` can report, such as denied access, are not modelled. On them `cleanFolder` would delete nothing.
- Installer.InstallStaysInside: unpacked entries are placed by plain concatenation `<gamePath>\<entry>`. go-unzip joins with `filepath.Join`, which resolves `..`, so an archive entry that climbs out of the folder, or the empty game path, which makes extraction relative to the working directory, is not modelled.
- Windows path details beyond plain string concatenation: drive letters, `..`, case-insensitive names and trailing separators. Paths are compared as exact strings.
- `os.Stat` failing for reasons other than absence: `exists` is modelled as "the path is in the file system".
- Reading `version.txt` fails in the model only when the path is a directory.

=== FILE: cleanup.dfy ===
/**
 * The cleanup pass run before a from-scratch install: every entry of the game
 * folder that is not on a keep list is deleted recursively, and the same is
 * done one level down inside the BepInEx folder with its own, shorter list.
 */
module FolderCleanup {
  import opened Names
  import opened FileTree

  /** The part of an `fs.FileInfo` the installer reads: its name. */
  datatype FileInfo = FileInfo(name: string)

  /** Top-level entries of the game folder that survive a cleanup. */
  const ToSkip: seq<string> := ["Among Us_Data", "BepInEx", "Among Us.exe", "baselib.dll",
                                "GameAssembly.dll", "UnityCrashHandler32.exe", "UnityPlayer.dll",
                                "version.txt"]

  /** Entries of the BepInEx folder that survive a cleanup. */
  const ToSkipBepInEx: seq<string> := ["config"]

  const BepInEx: string := "BepInEx"

  lemma BepInExIsName()
    ensures IsName(BepInEx)
  {
    assert forall i :: 0 <= i < |BepInEx| ==> BepInEx[i] != Sep;
  }

  function NamesOf(s: seq<FileInfo>): (names: set<string>)
  {
    set i | 0 <= i < |s| :: s[i].name
  }

  ghost predicate DistinctNames(s: seq<FileInfo>)
  {
    forall i, j :: 0 <= i < j < |s| ==> s[i].name != s[j].name
  }

  ghost predicate NoMatchBefore(s: seq<FileInfo>, file: string, i: int)
    requires 0 <= i <= |s|
  {
    forall j :: 0 <= j < i ==> s[j].name != file
  }

  /** The scan of `remove` from position `i` on; no earlier entry matched. */
  function RemoveFrom(s: seq<FileInfo>, file: string, i: nat): (r: seq<FileInfo>)
    requires i <= |s|
    requires NoMatchBefore(s, file, i)
    ensures NoMatchBefore(s, file, |s|) ==> r == s
    ensures forall m :: i <= m < |s| && s[m].name == file && NoMatchBefore(s, file, m) ==>
                          r == s[..m] + s[m + 1..]
    decreases |s| - i
  {
    if i == |s| then s
    else if s[i].name == file then s[..i] + s[i + 1..]
    else RemoveFrom(s, file, i + 1)
  }

  /**
   * `remove`: drops the first entry called `file`, keeping the others in
   * order; a list without such an entry comes back unchanged.
   */
  function Remove(s: seq<FileInfo>, file: string): (r: seq<FileInfo>)
    ensures NoMatchBefore(s, file, |s|) ==> r == s
    ensures forall m :: 0 <= m < |s| && s[m].name == file && NoMatchBefore(s, file, m) ==>
                          r == s[..m] + s[m + 1..]
  {
    RemoveFrom(s, file, 0)
  }

  /** Dropping position `m` of a listing without repeated names drops exactly its name. */
  lemma DropAtNames(s: seq<FileInfo>, m: nat)
    requires m < |s|
    requires DistinctNames(s)
    ensures DistinctNames(s[..m] + s[m + 1..])
    ensures forall n :: n in NamesOf(s[..m] + s[m + 1..]) <==> n in NamesOf(s) && n != s[m].name
  {
    var r := s[..m] + s[m + 1..];
    assert forall j :: 0 <= j < m ==> r[j] == s[j];
    assert forall j :: m <= j < |r| ==> r[j] == s[j + 1];
    forall n | n in NamesOf(r)
      ensures n in NamesOf(s) && n != s[m].name
    {
      var j :| 0 <= j < |r| && r[j].name == n;
      if j < m {
        assert s[j].name == n;
      } else {
        assert s[j + 1].name == n;
      }
    }
    forall n | n in NamesOf(s) && n != s[m].name
      ensures n in NamesOf(r)
    {
      var j :| 0 <= j < |s| && s[j].name == n;
      if j < m {
        assert r[j].name == n;
      } else {
        assert r[j - 1].name == n;
      }
    }
  }

  /** On a listing without repeated names, `remove` takes out exactly the name given. */
  lemma RemoveNames(s: seq<FileInfo>, file: string)
    ensures DistinctNames(s) ==> DistinctNames(Remove(s, file))
    ensures DistinctNames(s) ==> forall n :: n in NamesOf(Remove(s, file)) <==> n in NamesOf(s) && n != file
    ensures DistinctNames(s) ==> |Remove(s, file)| == if file in NamesOf(s) then |s| - 1 else |s|
  {
    if DistinctNames(s) {
      if file in NamesOf(s) {
        var m :| 0 <= m < |s| && s[m].name == file;
        assert NoMatchBefore(s, file, m);
        DropAtNames(s, m);
      } else {
        assert NoMatchBefore(s, file, |s|);
      }
    }
  }

  /**
   * The first loop of `cleanFolder`: `remove` each keep-listed name in turn.
   * On a listing without repeated names, exactly the names not on the keep
   * list are left; keep-list names absent from the listing change nothing.
   */
  function RemoveSkipped(content: seq<FileInfo>, skip: seq<string>): (kept: seq<FileInfo>)
    ensures DistinctNames(content) ==> DistinctNames(kept)
    ensures DistinctNames(content) ==> forall n :: n in NamesOf(kept) <==> n in NamesOf(content) && n !in skip
    decreases |skip|
  {
    if skip == [] then content
    else
      RemoveNames(content, skip[0]);
      assert forall n :: n in skip <==> n == skip[0] || n in skip[1..];
      RemoveSkipped(Remove(content, skip[0]), skip[1..])
  }

  /** `NamesOf` a non-empty listing: the first name and the names of the rest. */
  lemma NamesOfCons(content: seq<FileInfo>)
    requires content != []
    ensures NamesOf(content) == {content[0].name} + NamesOf(content[1..])
  {
    var n := content[0].name;
    forall x | x in NamesOf(content) ensures x in {n} + NamesOf(content[1..]) {
      var i :| 0 <= i < |content| && content[i].name == x;
      if i > 0 { assert content[1..][i - 1].name == x; }
    }
    forall x | x in NamesOf(content[1..]) ensures x in NamesOf(content) {
      var i :| 0 <= i < |content[1..]| && content[1..][i].name == x;
      assert content[i + 1].name == x;
    }
  }

  /** `os.RemoveAll(dir\n)` deletes exactly the paths whose entry of `dir` is `n`. */
  lemma RemoveEntry(fs: Fs, dir: string, n: string)
    requires IsName(n)
    ensures forall k :: k in RemoveAll(fs, Join(dir, n)) <==> k in fs && !(Under(k, dir) && Top(k, dir) == n)
  {
    forall k
      ensures k in RemoveAll(fs, Join(dir, n)) <==> k in fs && !(Under(k, dir) && Top(k, dir) == n)
    {
      EntryOrInside(k, dir, n);
    }
  }

  /**
   * The second loop of `cleanFolder`: `os.RemoveAll(dir\name)` for each
   * remaining entry. It deletes exactly the paths inside `dir` whose entry is
   * one of the listed names, and keeps every other path with its content.
   */
  function RemoveEach(fs: Fs, dir: string, content: seq<FileInfo>): (r: Fs)
    ensures (forall i :: 0 <= i < |content| ==> IsName(content[i].name)) ==>
              forall k :: k in r <==> k in fs && !(Under(k, dir) && Top(k, dir) in NamesOf(content))
    ensures forall k :: k in r ==> k in fs && r[k] == fs[k]
    decreases |content|
  {
    if content == [] then fs
    else
      var fs1 := RemoveAll(fs, Join(dir, content[0].name));
      NamesOfCons(content);
      if IsName(content[0].name) then
        RemoveEntry(fs, dir, content[0].name);
        RemoveEach(fs1, dir, content[1..])
      else
        RemoveEach(fs1, dir, content[1..])
  }

  /**
   * `ioutil.ReadDir` succeeds only on an existing directory: opening the
   * empty path fails, and reading a file as a directory fails.
   */
  predicate Listable(fs: Fs, dir: string)
  {
    dir != [] && dir in fs && fs[dir] == Dir
  }

  /**
   * What `ioutil.ReadDir` returns: one entry per child of `dir`, sorted by
   * name, or no entries when the listing fails (`cleanFolder` ignores the error).
   */
  function ReadDir(fs: Fs, dir: string): (content: seq<FileInfo>)
    ensures DistinctNames(content)
    ensures forall n :: n in NamesOf(content) <==> Listable(fs, dir) && n in Children(fs, dir)
  {
    if !Listable(fs, dir) then [] else
    var ns := SortedNames(Children(fs, dir));
    var content := seq(|ns|, i requires 0 <= i < |ns| => FileInfo(ns[i]));
    assert forall n :: n in NamesOf(content) ==> n in ns;
    assert forall i :: 0 <= i < |ns| ==> content[i].name == ns[i];
    content
  }

  /** A path that `cleanFolder(dir, skip)` deletes: inside an entry of `dir` not on the keep list. */
  ghost predicate Doomed(fs: Fs, dir: string, skip: seq<string>, k: string)
  {
    Listable(fs, dir) && Under(k, dir) && Top(k, dir) in Children(fs, dir) && Top(k, dir) !in skip
  }

  /** `cleanFolder`: list `dir`, drop the keep-listed names, delete the rest recursively. */
  function CleanFolder(fs: Fs, dir: string, skip: seq<string>): (r: Fs)
    ensures forall k :: k in r <==> k in fs && !Doomed(fs, dir, skip, k)
    ensures forall k :: k in r ==> r[k] == fs[k]
  {
    var content := ReadDir(fs, dir);
    var kept := RemoveSkipped(content, skip);
    assert forall i :: 0 <= i < |kept| ==> IsName(kept[i].name) by {
      forall i | 0 <= i < |kept| ensures IsName(kept[i].name) {
        assert kept[i].name in NamesOf(kept);
        ChildrenMember(fs, dir, kept[i].name);
      }
    }
    RemoveEach(fs, dir, kept)
  }

  /**
   * After `cleanFolder(dir, skip)` the entries of `dir` are exactly its old
   * entries that are on `skip`, or all of them when `dir` cannot be listed.
   */
  lemma CleanFolderChildren(fs: Fs, dir: string, skip: seq<string>)
    ensures forall n :: n in Children(CleanFolder(fs, dir, skip), dir) <==>
                          n in Children(fs, dir) && (n in skip || !Listable(fs, dir))
  {
    var r := CleanFolder(fs, dir, skip);
    forall n
      ensures n in Children(r, dir) <==> n in Children(fs, dir) && (n in skip || !Listable(fs, dir))
    {
      ChildrenMember(r, dir, n);
      ChildrenMember(fs, dir, n);
      if IsName(n) {
        EntryOrInside(Join(dir, n), dir, n);
      }
    }
  }

  /**
   * The order `ioutil.ReadDir` lists a folder in does not matter: any listing
   * of its entries, each once, leads `cleanFolder` to the same file system.
   */
  lemma CleanFolderAnyOrder(fs: Fs, dir: string, skip: seq<string>, listing: seq<FileInfo>)
    requires DistinctNames(listing)
    requires forall n :: n in NamesOf(listing) <==> n in NamesOf(ReadDir(fs, dir))
    ensures RemoveEach(fs, dir, RemoveSkipped(listing, skip)) == CleanFolder(fs, dir, skip)
  {
    var kept := RemoveSkipped(listing, skip);
    assert forall i :: 0 <= i < |kept| ==> IsName(kept[i].name) by {
      forall i | 0 <= i < |kept| ensures IsName(kept[i].name) {
        assert kept[i].name in NamesOf(kept);
        ChildrenMember(fs, dir, kept[i].name);
      }
    }
    var a := RemoveEach(fs, dir, kept);
    var b := CleanFolder(fs, dir, skip);
    forall k
      ensures k in a <==> k in b
    {
      if Under(k, dir) {
        var t := Top(k, dir);
        assert t in NamesOf(kept) <==> Listable(fs, dir) && t in Children(fs, dir) && t !in skip;
      }
    }
    SameKeysSameMap(fs, a, b);
  }

  /** Two file systems obtained from `fs` by deleting only are equal once they hold the same paths. */
  lemma SameKeysSameMap(fs: Fs, a: Fs, b: Fs)
    requires forall k :: k in a ==> k in fs && a[k] == fs[k]
    requires forall k :: k in b ==> k in fs && b[k] == fs[k]
    requires forall k :: k in a <==> k in b
    ensures a == b
  {
    assert a.Keys == b.Keys;
  }

  /** A path inside `dir\n` is never itself an entry of `dir`. */
  lemma InsideEntryIsNotEntry(k: string, dir: string, n: string)
    requires IsName(n)
    requires Under(k, Join(dir, n))
    ensures Under(k, dir) && Top(k, dir) == n
    ensures !IsName(Below(k, dir))
  {
    EntryOrInside(k, dir, n);
    var rest := k[|Join(dir, n)| + 1..];
    assert k == dir + [Sep] + (n + [Sep] + rest);
    assert Below(k, dir) == n + [Sep] + rest;
    assert Below(k, dir)[|n|] == Sep;
  }

  /**
   * `cleanup`: clean the game folder with the top-level keep list, then, if a
   * BepInEx folder is still there, clean it with its own keep list. It only
   * deletes, and only inside the game folder.
   */
  function Cleanup(fs: Fs, gamePath: string): (r: Fs)
    ensures forall k :: !Under(k, gamePath) ==> (k in r <==> k in fs)
    ensures forall k :: k in r ==> k in fs && r[k] == fs[k]
  {
    var fs1 := CleanFolder(fs, gamePath, ToSkip);
    var bep := Join(gamePath, BepInEx);
    if Exists(fs1, bep) then
      InsideBepInExIsInsideGame(gamePath);
      CleanFolder(fs1, bep, ToSkipBepInEx)
    else
      fs1
  }

  lemma InsideBepInExIsInsideGame(gamePath: string)
    ensures forall k :: Under(k, Join(gamePath, BepInEx)) ==> Under(k, gamePath)
  {
    forall k | Under(k, Join(gamePath, BepInEx))
      ensures Under(k, gamePath)
    {
      InsideEntryIsNotEntry(k, gamePath, BepInEx);
    }
  }

  /** The first pass keeps BepInEx and everything inside it, since BepInEx is on the keep list. */
  lemma FirstPassKeepsBepInEx(fs: Fs, gamePath: string)
    ensures var fs1 := CleanFolder(fs, gamePath, ToSkip);
            var bep := Join(gamePath, BepInEx);
            && (bep in fs1 <==> bep in fs)
            && forall m :: m in Children(fs1, bep) <==> m in Children(fs, bep)
  {
    var fs1 := CleanFolder(fs, gamePath, ToSkip);
    var bep := Join(gamePath, BepInEx);
    EntryOrInside(bep, gamePath, BepInEx);
    forall m
      ensures m in Children(fs1, bep) <==> m in Children(fs, bep)
    {
      ChildrenMember(fs1, bep, m);
      ChildrenMember(fs, bep, m);
      if IsName(m) {
        var k := Join(bep, m);
        assert Under(k, bep);
        EntryOrInside(k, gamePath, BepInEx);
      }
    }
  }

  /** Cleaning inside an entry `dir\\m` leaves the list of entries of `dir` alone. */
  lemma InnerCleanKeepsEntries(fs: Fs, dir: string, m: string, skip: seq<string>)
    requires IsName(m)
    ensures forall n :: n in Children(CleanFolder(fs, Join(dir, m), skip), dir) <==> n in Children(fs, dir)
  {
    var r := CleanFolder(fs, Join(dir, m), skip);
    forall n
      ensures n in Children(r, dir) <==> n in Children(fs, dir)
    {
      ChildrenMember(r, dir, n);
      ChildrenMember(fs, dir, n);
      if IsName(n) {
        EntryNotInsideEntry(dir, n, m);
      }
    }
  }

  /** An entry `dir\n` never lies inside another entry `dir\m`. */
  lemma EntryNotInsideEntry(dir: string, n: string, m: string)
    requires IsName(n) && IsName(m)
    ensures !Under(Join(dir, n), Join(dir, m))
  {
    var k := Join(dir, n);
    if Under(k, Join(dir, m)) {
      InsideEntryIsNotEntry(k, dir, m);
    }
  }

  /**
   * After `cleanup` the game folder holds exactly its old entries that are on
   * the top-level keep list, or all of them when it cannot be listed.
   */
  lemma CleanupKeepsTopLevel(fs: Fs, gamePath: string)
    ensures forall n :: n in Children(Cleanup(fs, gamePath), gamePath) <==>
                          n in Children(fs, gamePath) && (n in ToSkip || !Listable(fs, gamePath))
  {
    var bep := Join(gamePath, BepInEx);
    var fs1 := CleanFolder(fs, gamePath, ToSkip);
    BepInExIsName();
    CleanFolderChildren(fs, gamePath, ToSkip);
    var r := Cleanup(fs, gamePath);
    if bep in fs1 {
      assert r == CleanFolder(fs1, bep, ToSkipBepInEx);
      InnerCleanKeepsEntries(fs1, gamePath, BepInEx, ToSkipBepInEx);
      assert forall n :: n in Children(r, gamePath) <==> n in Children(fs1, gamePath);
    } else {
      assert r == fs1;
    }
  }

  /**
   * BepInEx survives `cleanup` whenever it was there, and inside it only the
   * entries on its own keep list (`config`) are left, unless it is a file
   * rather than a folder.
   */
  lemma CleanupKeepsBepInExConfig(fs: Fs, gamePath: string)
    requires Join(gamePath, BepInEx) in fs
    ensures Join(gamePath, BepInEx) in Cleanup(fs, gamePath)
    ensures forall n :: n in Children(Cleanup(fs, gamePath), Join(gamePath, BepInEx)) <==>
                          n in Children(fs, Join(gamePath, BepInEx))
                          && (n in ToSkipBepInEx || fs[Join(gamePath, BepInEx)] != Dir)
  {
    var bep := Join(gamePath, BepInEx);
    var fs1 := CleanFolder(fs, gamePath, ToSkip);
    FirstPassKeepsBepInEx(fs, gamePath);
    assert Cleanup(fs, gamePath) == CleanFolder(fs1, bep, ToSkipBepInEx);
    CleanFolderChildren(fs1, bep, ToSkipBepInEx);
    assert !Under(bep, bep);
    assert fs1[bep] == fs[bep];
    assert Listable(fs1, bep) <==> fs[bep] == Dir;
  }

  /**
   * With the empty game path the top-level listing fails, so `cleanup` deletes
   * nothing outside `\BepInEx`; in particular no entry of the drive's root goes.
   */
  lemma EmptyGamePathSparesRoot(fs: Fs)
    ensures forall k :: !Under(k, Join("", BepInEx)) ==> (k in Cleanup(fs, "") <==> k in fs)
  {
    assert CleanFolder(fs, "", ToSkip) == fs;
  }
}

=== FILE: common.dfy ===
/** Small wrapper datatypes shared by every module of the installer model. */
module Common {

  /** A value that may be absent: Go's nil pointer fields (`*bool`, `*string`). */
  datatype Option<+T> = None | Some(value: T) {
    function GetOr(default: T): T {
      match this
      case Some(v) => v
      case None => default
    }
  }

  /** A Go `(value, error)` pair where exactly one side is meaningful. */
  datatype Result<+T, +E> = Ok(value: T) | Err(error: E)
}

=== FILE: file_tree.dfy ===
/**
 * The abstract file system the installer works on: every existing path,
 * written out in full with Windows separators, mapped to what it names.
 * Paths are built by plain string concatenation, exactly as main.go does.
 */
module FileTree {
  import opened Names

  datatype Node = File(content: string) | Dir

  type Fs = map<string, Node>

  const Sep: char := '\\'

  /** `dir + "\" + name`, the only way main.go forms a path below another. */
  function Join(dir: string, name: string): (path: string)
  {
    dir + [Sep] + name
  }

  /** `os.Stat` succeeds on `path`. */
  predicate Exists(fs: Fs, path: string)
  {
    path in fs
  }

  /** A single directory entry name: non-empty and without a separator. */
  predicate IsName(n: string)
  {
    n != [] && Sep !in n
  }

  /** `k` lies inside directory `dir` (at any depth). */
  predicate Under(k: string, dir: string)
  {
    dir + [Sep] <= k
  }

  /** The part of `k` after `dir` and its separator. */
  function Below(k: string, dir: string): (rest: string)
    requires Under(k, dir)
  {
    k[|dir| + 1..]
  }

  /** The leading component of a relative path, up to its first separator. */
  function FirstComponent(s: string): (c: string)
    ensures c <= s
    ensures Sep !in c
    ensures |c| < |s| ==> s[|c|] == Sep
  {
    if s == [] || s[0] == Sep then [] else [s[0]] + FirstComponent(s[1..])
  }

  /** The name of the entry of `dir` that contains `k`. */
  function Top(k: string, dir: string): (name: string)
    requires Under(k, dir)
  {
    FirstComponent(Below(k, dir))
  }

  /** The names listed in directory `dir`. */
  function Children(fs: Fs, dir: string): (names: set<string>)
  {
    set k | k in fs && Under(k, dir) && IsName(Below(k, dir)) :: Below(k, dir)
  }

  lemma {:induction false} FirstComponentOfName(n: string, rest: string)
    requires Sep !in n
    ensures FirstComponent(n) == n
    ensures FirstComponent(n + [Sep] + rest) == n
    decreases |n|
  {
    if n != [] {
      FirstComponentOfName(n[1..], rest);
      assert (n + [Sep] + rest)[1..] == n[1..] + [Sep] + rest;
    } else {
      assert (n + [Sep] + rest)[0] == Sep;
    }
  }

  /** `exists(dir\n)` agrees with the listing of `dir`: the names listed are exactly the existing entries. */
  lemma ChildrenMember(fs: Fs, dir: string, n: string)
    ensures n in Children(fs, dir) <==> IsName(n) && Exists(fs, Join(dir, n))
  {
    if n in Children(fs, dir) {
      var k :| k in fs && Under(k, dir) && IsName(Below(k, dir)) && Below(k, dir) == n;
      assert k == dir + [Sep] + Below(k, dir);
    }
    var k := Join(dir, n);
    assert Under(k, dir);
    assert Below(k, dir) == n;
  }

  /**
   * A path is the entry `dir\n` or lies inside it exactly when it lies inside
   * `dir` and its leading component below `dir` is `n`.
   */
  lemma EntryOrInside(k: string, dir: string, n: string)
    requires IsName(n)
    ensures (k == Join(dir, n) || Under(k, Join(dir, n)))
        <==> (Under(k, dir) && Top(k, dir) == n)
  {
    if k == Join(dir, n) {
      assert Below(k, dir) == n;
      FirstComponentOfName(n, []);
    } else if Under(k, Join(dir, n)) {
      var rest := k[|Join(dir, n)| + 1..];
      assert k == dir + [Sep] + (n + [Sep] + rest);
      assert Below(k, dir) == n + [Sep] + rest;
      FirstComponentOfName(n, rest);
    }
    if Under(k, dir) && Top(k, dir) == n {
      var b := Below(k, dir);
      assert k == dir + [Sep] + b;
      if |n| == |b| {
        assert b == n;
      } else {
        assert b[..|n| + 1] == n + [Sep];
        assert k[..|Join(dir, n)| + 1] == Join(dir, n) + [Sep];
      }
    }
  }

  /** `os.RemoveAll(path)`: the path and everything inside it disappear. */
  function RemoveAll(fs: Fs, path: string): (r: Fs)
    ensures forall k :: k in r <==> k in fs && k != path && !Under(k, path)
    ensures forall k :: k in r ==> r[k] == fs[k]
  {
    map k | k in fs && k != path && !Under(k, path) :: fs[k]
  }

  /** Distinct names give distinct paths inside the same folder. */
  lemma JoinInjective(dir: string)
    ensures forall a, b :: Join(dir, a) == Join(dir, b) ==> a == b
  {
    forall a, b | Join(dir, a) == Join(dir, b)
      ensures a == b
    {
      assert a == Join(dir, a)[|dir| + 1..];
      assert b == Join(dir, b)[|dir| + 1..];
    }
  }
}

=== FILE: installer.dfy ===
/**
 * Installing one release into the game folder: download the release archive
 * next to the game, unpack it over the folder, delete the archive, record the
 * version in the marker file, then start the game or offer to.
 */
module Installer {
  import opened Common
  import opened FileTree
  import opened Settings

  const ReleaseDownloads: string := "https://github.com/Eisbison/TheOtherRoles/releases/download/"
  const ReleaseAsset: string := "/TheOtherRoles.zip"
  const MarkerName: string := "version.txt"

  /** The file name the archive of `version` is saved under. */
  function ArchiveName(version: string): (name: string)
  {
    "TheOtherRoles_" + version + ".zip"
  }

  /** Where the archive of `version` is downloaded to: directly inside the game folder. */
  function ZipPath(gamePath: string, version: string): (zip: string)
    ensures Under(zip, gamePath) && Below(zip, gamePath) == ArchiveName(version)
  {
    var zip := gamePath + "\\TheOtherRoles_" + version + ".zip";
    assert zip == gamePath + [Sep] + ArchiveName(version);
    zip
  }

  /** The release asset of `version`: the download prefix, the tag, then the asset name. */
  function ReleaseUrl(version: string): (url: string)
    ensures |url| == |ReleaseDownloads| + |version| + |ReleaseAsset|
    ensures url[..|ReleaseDownloads|] == ReleaseDownloads
    ensures url[|ReleaseDownloads|..|url| - |ReleaseAsset|] == version
    ensures url[|url| - |ReleaseAsset|..] == ReleaseAsset
  {
    var url := ReleaseDownloads + version + "/TheOtherRoles.zip";
    assert url == ReleaseDownloads + version + ReleaseAsset;
    url
  }

  /** The installed-version marker: the entry `version.txt` directly inside the game folder. */
  function MarkerPath(gamePath: string): (marker: string)
    ensures Under(marker, gamePath) && Below(marker, gamePath) == MarkerName
  {
    Join(gamePath, MarkerName)
  }

  function InstalledMessage(version: string): (message: string)
  {
    "The Other Roles " + version + " is successfully installed. \nStart the game now?"
  }

  function UpToDateMessage(version: string): (message: string)
  {
    "The latest Version (" + version + ") is already installed. \nStart the game now?"
  }

  /** The observable steps of a run, in the order they happen. */
  datatype Effect =
    | CleanedUp(dir: string)
    | Requested(url: string, to: string)
    | Unpacked(archive: string, into: string)
    | DeletedArchive(path: string)
    | WroteMarker(path: string, version: string)
    | AskedToStart(message: string)
    | LaunchedGame
    | WroteConfig(conf: Config)

  /** How the download of the release asset ends. */
  datatype Download =
    | Fetched(body: string)                       // the archive file now holds `body`
    | RequestFailed(message: string)              // no response, or the file could not be created
    | CopyFailed(partial: string, message: string) // the file was created but the copy broke off

  /**
   * How unpacking ends; `entries` are the archive's paths relative to the game
   * folder, `written` the ones that were written before the failure. Writing
   * an entry also creates the missing folders on its way (see `Place`).
   */
  datatype Extraction =
    | Extracted(entries: map<string, Node>)
    | ExtractFailed(written: map<string, Node>, message: string)

  /** The outcomes of the I/O `downloadAndExtractRelease` performs. */
  datatype InstallIo = InstallIo(
    download: Download,
    extraction: Extraction,
    removeError: Option<string>,
    markerError: Option<string>)

  datatype Failure =
    | DownloadFailed(message: string)
    | ExtractionFailed(message: string)
    | RemoveFailed(message: string)
    | MarkerFailed(message: string)

  /** The file system, the effects so far and the error, if any, after an install attempt. */
  datatype Step = Step(fs: Fs, trace: seq<Effect>, failure: Option<Failure>)

  /**
   * The folders extraction creates on the way to the archive's entries: every
   * prefix of an entry that ends right before one of its separators.
   */
  function Parents(entries: map<string, Node>): (dirs: set<string>)
  {
    set k, i | k in entries && 0 < i < |k| && k[i] == Sep :: k[..i]
  }

  /** What an extraction wrote: the whole archive, or the entries written before it broke off. */
  function Written(x: Extraction): (w: map<string, Node>)
  {
    match x
    case Extracted(entries) => entries
    case ExtractFailed(written, _) => written
  }

  /** Every path inside the game folder that writing `entries` writes or creates a folder at. */
  function Landing(gamePath: string, entries: map<string, Node>): (paths: set<string>)
  {
    set e | e in entries.Keys + Parents(entries) :: Join(gamePath, e)
  }

  /** The paths an extraction writes or creates a folder at. */
  function Touched(gamePath: string, x: Extraction): (paths: set<string>)
  {
    Landing(gamePath, Written(x))
  }

  /** Every path an extraction can touch lies inside the game folder. */
  lemma LandingInside(gamePath: string, entries: map<string, Node>)
    ensures forall q :: q in Landing(gamePath, entries) ==> Under(q, gamePath)
  {
  }

  /** The archive's entries, each at its relative path inside the game folder. */
  function Entries(gamePath: string, entries: map<string, Node>): (placed: Fs)
    ensures forall k :: k in entries ==> Join(gamePath, k) in placed && placed[Join(gamePath, k)] == entries[k]
    ensures forall q :: q in placed ==> q in Landing(gamePath, entries)
  {
    JoinInjective(gamePath);
    map k | k in entries :: Join(gamePath, k) := entries[k]
  }

  /** The folders on the way to the archive's entries that do not exist yet. */
  function NewFolders(fs: Fs, gamePath: string, entries: map<string, Node>): (dirs: Fs)
    ensures forall p :: p in Parents(entries) && Join(gamePath, p) !in fs ==> Join(gamePath, p) in dirs
    ensures forall q :: q in dirs ==> q !in fs && dirs[q] == Dir && q in Landing(gamePath, entries)
  {
    map p | p in Parents(entries) && Join(gamePath, p) !in fs :: Join(gamePath, p) := Dir
  }

  /**
   * Archive entries written inside the game folder: each entry lands at its
   * relative path, each missing folder on the way to one is created, and
   * every path the archive does not reach keeps its presence and content.
   */
  function Place(fs: Fs, gamePath: string, entries: map<string, Node>): (r: Fs)
    ensures forall k :: k in entries ==> Join(gamePath, k) in r && r[Join(gamePath, k)] == entries[k]
    ensures forall p :: p in Parents(entries) ==> Join(gamePath, p) in r
    ensures forall q :: q !in Landing(gamePath, entries) ==> (q in r <==> q in fs) && (q in r ==> r[q] == fs[q])
  {
    fs + NewFolders(fs, gamePath, entries) + Entries(gamePath, entries)
  }

  /** Launch right away under autostart, otherwise ask and launch on "yes". */
  function StartOrAsk(autostart: bool, message: string, startNow: bool): (effects: seq<Effect>)
    ensures LaunchedGame in effects <==> autostart || startNow
    ensures AskedToStart(message) in effects <==> !autostart
    ensures !autostart ==> |effects| > 0 && effects[0] == AskedToStart(message)
    ensures forall i :: 0 <= i < |effects| && effects[i] == LaunchedGame ==> i == |effects| - 1
  {
    if autostart then [LaunchedGame]
    else [AskedToStart(message)] + (if startNow then [LaunchedGame] else [])
  }

  predicate InstallSucceeds(io: InstallIo)
  {
    io.download.Fetched? && io.extraction.Extracted? && io.removeError.None? && io.markerError.None?
  }

  /** The effects of a fully successful install, in order. */
  function InstallTrace(gamePath: string, version: string, autostart: bool, startNow: bool): (effects: seq<Effect>)
  {
    [Requested(ReleaseUrl(version), ZipPath(gamePath, version)),
     Unpacked(ZipPath(gamePath, version), gamePath),
     DeletedArchive(ZipPath(gamePath, version)),
     WroteMarker(MarkerPath(gamePath), version)]
    + StartOrAsk(autostart, InstalledMessage(version), startNow)
  }

  /**
   * `downloadAndExtractRelease`. Each step runs only when the one before it
   * succeeded, and the marker is written last, so it names `version` exactly
   * when everything else worked.
   */
  function DownloadAndExtractRelease(fs: Fs, gamePath: string, version: string, autostart: bool,
                                     io: InstallIo, startNow: bool): (r: Step)
    ensures |r.trace| > 0 && r.trace[0] == Requested(ReleaseUrl(version), ZipPath(gamePath, version))
    ensures r.failure.None? <==> InstallSucceeds(io)
    ensures r.failure.None? ==> r.trace == InstallTrace(gamePath, version, autostart, startNow)
    ensures r.failure.None? ==> MarkerPath(gamePath) in r.fs && r.fs[MarkerPath(gamePath)] == File(version)
  {
    var zip := ZipPath(gamePath, version);
    var requested := [Requested(ReleaseUrl(version), zip)];
    match io.download
    case RequestFailed(message) => Step(fs, requested, Some(DownloadFailed(message)))
    case CopyFailed(partial, message) => Step(fs[zip := File(partial)], requested, Some(DownloadFailed(message)))
    case Fetched(body) =>
      var rest := Unpack(fs[zip := File(body)], gamePath, version, autostart, io, startNow);
      Step(rest.fs, requested + rest.trace, rest.failure)
  }

  /** Unpacking the downloaded archive and what follows it. */
  function Unpack(fs: Fs, gamePath: string, version: string, autostart: bool,
                  io: InstallIo, startNow: bool): (r: Step)
    ensures r.failure.None? <==> io.extraction.Extracted? && io.removeError.None? && io.markerError.None?
    ensures r.failure.None? ==> [Requested(ReleaseUrl(version), ZipPath(gamePath, version))] + r.trace
                                == InstallTrace(gamePath, version, autostart, startNow)
    ensures r.failure.None? ==> MarkerPath(gamePath) in r.fs && r.fs[MarkerPath(gamePath)] == File(version)
  {
    var zip := ZipPath(gamePath, version);
    var unpacked := [Unpacked(zip, gamePath)];
    match io.extraction
    case ExtractFailed(written, message) =>
      Step(Place(fs, gamePath, written), unpacked, Some(ExtractionFailed(message)))
    case Extracted(entries) =>
      var rest := RecordVersion(Place(fs, gamePath, entries), gamePath, version, autostart, io, startNow);
      Step(rest.fs, unpacked + rest.trace, rest.failure)
  }

  /** Deleting the archive, writing the marker, then starting the game or offering to. */
  function RecordVersion(fs: Fs, gamePath: string, version: string, autostart: bool,
                         io: InstallIo, startNow: bool): (r: Step)
    ensures r.failure.None? <==> io.removeError.None? && io.markerError.None?
    ensures r.failure.None? ==> [Requested(ReleaseUrl(version), ZipPath(gamePath, version)),
                                 Unpacked(ZipPath(gamePath, version), gamePath)] + r.trace
                                == InstallTrace(gamePath, version, autostart, startNow)
    ensures r.failure.None? ==> MarkerPath(gamePath) in r.fs && r.fs[MarkerPath(gamePath)] == File(version)
  {
    var zip := ZipPath(gamePath, version);
    var marker := MarkerPath(gamePath);
    if io.removeError.Some? then Step(fs, [], Some(RemoveFailed(io.removeError.value)))
    else if io.markerError.Some? then Step(fs - {zip}, [DeletedArchive(zip)], Some(MarkerFailed(io.markerError.value)))
    else
      Step((fs - {zip})[marker := File(version)],
           [DeletedArchive(zip), WroteMarker(marker, version)] + StartOrAsk(autostart, InstalledMessage(version), startNow),
           None)
  }

  /** Whatever the version, the archive never lands on the marker file. */
  lemma ZipPathNamesVersion(gamePath: string, version: string)
    ensures Under(ZipPath(gamePath, version), gamePath)
    ensures ZipPath(gamePath, version) != MarkerPath(gamePath)
  {
    assert ArchiveName(version)[0] == 'T';
    assert MarkerName[0] == 'v';
  }

  /** Distinct versions never share an asset URL or an archive path. */
  lemma VersionRecoverable(gamePath: string, v1: string, v2: string)
    ensures ReleaseUrl(v1) == ReleaseUrl(v2) ==> v1 == v2
    ensures ZipPath(gamePath, v1) == ZipPath(gamePath, v2) ==> v1 == v2
  {
    if ZipPath(gamePath, v1) == ZipPath(gamePath, v2) {
      var a1, a2 := ArchiveName(v1), ArchiveName(v2);
      assert a1 == a2;
      assert a1[|"TheOtherRoles_"|..|a1| - |".zip"|] == v1;
      assert a2[|"TheOtherRoles_"|..|a2| - |".zip"|] == v2;
    }
  }

  /**
   * An install that fails at any step leaves the marker as it was (provided the
   * archive does not itself carry a marker file).
   */
  lemma FailedInstallKeepsMarker(fs: Fs, gamePath: string, version: string, autostart: bool,
                                 io: InstallIo, startNow: bool)
    requires !InstallSucceeds(io)
    requires MarkerName !in Written(io.extraction) && MarkerName !in Parents(Written(io.extraction))
    ensures var r := DownloadAndExtractRelease(fs, gamePath, version, autostart, io, startNow);
            && (MarkerPath(gamePath) in r.fs <==> MarkerPath(gamePath) in fs)
            && (MarkerPath(gamePath) in fs ==> r.fs[MarkerPath(gamePath)] == fs[MarkerPath(gamePath)])
  {
    ZipPathNamesVersion(gamePath, version);
    JoinInjective(gamePath);
  }

  /** An install, whether it succeeds or not, touches nothing outside the game folder. */
  lemma InstallStaysInside(fs: Fs, gamePath: string, version: string, autostart: bool,
                           io: InstallIo, startNow: bool)
    ensures var r := DownloadAndExtractRelease(fs, gamePath, version, autostart, io, startNow);
            forall p :: !Under(p, gamePath) ==> (p in r.fs <==> p in fs) && (p in fs ==> r.fs[p] == fs[p])
  {
    ZipPathNamesVersion(gamePath, version);
    assert Under(MarkerPath(gamePath), gamePath);
    LandingInside(gamePath, Written(io.extraction));
    forall p | !Under(p, gamePath) {
      InstallKeepsOthers(fs, gamePath, version, autostart, io, startNow, p);
    }
  }

  /** A successful install leaves the unpacked entries in the game folder and the archive gone. */
  lemma InstallLeavesEntries(fs: Fs, gamePath: string, version: string, autostart: bool,
                             io: InstallIo, startNow: bool)
    requires InstallSucceeds(io)
    ensures var r := DownloadAndExtractRelease(fs, gamePath, version, autostart, io, startNow);
            && ZipPath(gamePath, version) !in r.fs
            && forall k :: k in io.extraction.entries && k != MarkerName && Join(gamePath, k) != ZipPath(gamePath, version) ==>
                             Join(gamePath, k) in r.fs && r.fs[Join(gamePath, k)] == io.extraction.entries[k]
  {
    SucceededInstallFs(fs, gamePath, version, autostart, io, startNow);
    EntriesSurviveRecord(Place(fs[ZipPath(gamePath, version) := File(io.download.body)], gamePath, io.extraction.entries),
                         gamePath, version, io.extraction.entries);
  }

  /** The file system after a successful install, step by step. */
  lemma SucceededInstallFs(fs: Fs, gamePath: string, version: string, autostart: bool,
                           io: InstallIo, startNow: bool)
    requires InstallSucceeds(io)
    ensures DownloadAndExtractRelease(fs, gamePath, version, autostart, io, startNow).fs
            == (Place(fs[ZipPath(gamePath, version) := File(io.download.body)], gamePath, io.extraction.entries)
                - {ZipPath(gamePath, version)})[MarkerPath(gamePath) := File(version)]
  {
  }

  /** Deleting the archive and writing the marker leave the other unpacked entries in place. */
  lemma EntriesSurviveRecord(placed: Fs, gamePath: string, version: string, entries: map<string, Node>)
    requires forall k :: k in entries ==> Join(gamePath, k) in placed && placed[Join(gamePath, k)] == entries[k]
    ensures var zip := ZipPath(gamePath, version);
            var r := (placed - {zip})[MarkerPath(gamePath) := File(version)];
            && zip !in r
            && forall k :: k in entries && k != MarkerName && Join(gamePath, k) != zip ==>
                             Join(gamePath, k) in r && r[Join(gamePath, k)] == entries[k]
  {
    ZipPathNamesVersion(gamePath, version);
    forall k | k in entries && k != MarkerName
      ensures Join(gamePath, k) != MarkerPath(gamePath)
    {
      assert Join(gamePath, k)[|gamePath| + 1..] == k;
      assert MarkerPath(gamePath)[|gamePath| + 1..] == MarkerName;
    }
  }

  /**
   * Unpacking over the folder replaces only what the archive carries: a path
   * that the extraction neither writes nor creates a folder at, and that is
   * neither the archive nor the marker, keeps its presence and content,
   * whether or not the install succeeds.
   */
  lemma InstallKeepsOthers(fs: Fs, gamePath: string, version: string, autostart: bool,
                           io: InstallIo, startNow: bool, k: string)
    requires k != ZipPath(gamePath, version) && k != MarkerPath(gamePath)
    requires k !in Touched(gamePath, io.extraction)
    ensures var r := DownloadAndExtractRelease(fs, gamePath, version, autostart, io, startNow);
            && (k in r.fs <==> k in fs)
            && (k in fs ==> r.fs[k] == fs[k])
  {
  }

  /** A failed install neither records a version nor starts the game. */
  lemma FailedInstallStopsEarly(fs: Fs, gamePath: string, version: string, autostart: bool,
                                io: InstallIo, startNow: bool)
    ensures var r := DownloadAndExtractRelease(fs, gamePath, version, autostart, io, startNow);
            r.failure.Some? ==> forall i :: 0 <= i < |r.trace| ==> !r.trace[i].WroteMarker? && r.trace[i] != LaunchedGame
  {
  }

  /** An install never cleans up or saves the config itself. */
  lemma InstallTraceFacts(fs: Fs, gamePath: string, version: string, autostart: bool,
                          io: InstallIo, startNow: bool)
    ensures var r := DownloadAndExtractRelease(fs, gamePath, version, autostart, io, startNow);
            forall i :: 0 <= i < |r.trace| ==> !r.trace[i].CleanedUp? && !r.trace[i].WroteConfig?
  {
    var r := DownloadAndExtractRelease(fs, gamePath, version, autostart, io, startNow);
    var zip := ZipPath(gamePath, version);
    var request := Requested(ReleaseUrl(version), zip);
    if r.failure.None? {
      InstallTraceKinds(gamePath, version, autostart, startNow);
    } else if !io.download.Fetched? {
      assert r.trace == [request];
    } else if io.extraction.ExtractFailed? || io.removeError.Some? {
      assert r.trace == [request, Unpacked(zip, gamePath)];
    } else {
      assert r.trace == [request, Unpacked(zip, gamePath), DeletedArchive(zip)];
    }
  }

  lemma InstallTraceKinds(gamePath: string, version: string, autostart: bool, startNow: bool)
    ensures var t := InstallTrace(gamePath, version, autostart, startNow);
            forall i :: 0 <= i < |t| ==> !t[i].CleanedUp? && !t[i].WroteConfig?
  {
    var tail := StartOrAsk(autostart, InstalledMessage(version), startNow);
    assert forall i :: 0 <= i < |tail| ==> tail[i] == LaunchedGame || tail[i].AskedToStart?;
  }
}

=== FILE: names.dfy ===
/**
 * File names and the order `ioutil.ReadDir` lists them in: Go sorts directory
 * entries by name with byte-wise string comparison, which on UTF-8 text is the
 * same as comparing code points, i.e. comparing Dafny characters.
 */
module Names {

  /** `a` sorts no later than `b` in lexicographic code-point order. */
  predicate NoLater(a: string, b: string)
  {
    |a| == 0 || (|b| > 0 && (a[0] < b[0] || (a[0] == b[0] && NoLater(a[1..], b[1..]))))
  }

  lemma {:induction false} NoLaterAntisymmetric(a: string, b: string)
    requires NoLater(a, b) && NoLater(b, a)
    ensures a == b
    decreases |a|
  {
    if |a| > 0 {
      NoLaterAntisymmetric(a[1..], b[1..]);
      assert a == [a[0]] + a[1..];
      assert b == [b[0]] + b[1..];
    }
  }

  lemma {:induction false} NoLaterTotal(a: string, b: string)
    ensures NoLater(a, b) || NoLater(b, a)
    decreases |a|
  {
    if |a| > 0 && |b| > 0 && a[0] == b[0] {
      NoLaterTotal(a[1..], b[1..]);
    }
  }

  lemma {:induction false} NoLaterTransitive(a: string, b: string, c: string)
    requires NoLater(a, b) && NoLater(b, c)
    ensures NoLater(a, c)
    decreases |a|
  {
    if |a| > 0 && a[0] == b[0] && b[0] == c[0] {
      NoLaterTransitive(a[1..], b[1..], c[1..]);
    }
  }

  predicate IsFirst(m: string, s: set<string>)
  {
    m in s && forall y :: y in s ==> NoLater(m, y)
  }

  /** Every finite non-empty set of names has a first element. */
  lemma {:induction false} FirstExists(s: set<string>)
    requires s != {}
    ensures exists m :: IsFirst(m, s)
    decreases |s|
  {
    var x :| x in s;
    var rest := s - {x};
    if rest == {} {
      assert s == {x};
      NoLaterTotal(x, x);
      assert IsFirst(x, s);
    } else {
      FirstExists(rest);
      var m :| IsFirst(m, rest);
      NoLaterTotal(m, x);
      if NoLater(m, x) {
        assert IsFirst(m, s);
      } else {
        forall y | y in s
          ensures NoLater(x, y)
        {
          if y != x {
            NoLaterTransitive(x, m, y);
          } else {
            NoLaterTotal(x, x);
          }
        }
        assert IsFirst(x, s);
      }
    }
  }

  /** The first element of a non-empty set of names is unique. */
  lemma FirstUnique(s: set<string>)
    ensures forall m, m' :: IsFirst(m, s) && IsFirst(m', s) ==> m == m'
  {
    forall m, m' | IsFirst(m, s) && IsFirst(m', s)
      ensures m == m'
    {
      NoLaterAntisymmetric(m, m');
    }
  }

  ghost predicate Distinct(ns: seq<string>)
  {
    forall i, j :: 0 <= i < j < |ns| ==> ns[i] != ns[j]
  }

  ghost predicate Sorted(ns: seq<string>)
  {
    forall i, j :: 0 <= i < j < |ns| ==> NoLater(ns[i], ns[j])
  }

  /**
   * The names of a set listed the way `ioutil.ReadDir` lists a directory:
   * every name exactly once, in ascending order.
   */
  function SortedNames(s: set<string>): (ns: seq<string>)
    ensures forall n :: n in ns <==> n in s
    ensures Distinct(ns)
    ensures Sorted(ns)
    ensures |ns| == |s|
    decreases |s|
  {
    if s == {} then []
    else
      FirstExists(s);
      FirstUnique(s);
      var m :| IsFirst(m, s);
      var rest := SortedNames(s - {m});
      [m] + rest
  }
}

=== FILE: orchestrator.dfy ===
/**
 * `main`: load the config, find the game folder, fetch the newest release tag,
 * then branch three ways on the version marker, and save the config on every
 * path that gets to the end.
 */
module Orchestrator {
  import opened Common
  import opened FileTree
  import opened Settings
  import opened PathResolver
  import opened FolderCleanup
  import opened Installer

  /** Everything the outside world answers during one run. */
  datatype Io = Io(
    configFile: ConfigFile,
    registry: Registry,
    picks: seq<Pick>,
    latest: Result<string, string>,   // the release feed's `tag_name`, or why it could not be had
    install: InstallIo,
    startNow: bool,                   // the answer to the "Start the game now?" question
    configWriteError: Option<string>)

  datatype Fatal =
    | ConfigUndecodable(message: string)
    | PickerFailed(message: string)
    | LatestUnknown(message: string)
    | MarkerUnreadable
    | InstallFailed(failure: Failure)
    | ConfigNotSaved(message: string)

  /** How the process ends. */
  datatype Status =
    | Completed            // config saved, exit status 0
    | Quit                 // the picker was cancelled: exit status 0, nothing saved
    | Failed(error: Fatal) // error dialog, exit status 1
    | WaitingForUser       // the picker is still open

  function ExitCode(status: Status): (code: Option<int>)
    ensures code == Some(0) <==> status.Completed? || status.Quit?
    ensures code == Some(1) <==> status.Failed?
  {
    match status
    case Completed => Some(0)
    case Quit => Some(0)
    case Failed(_) => Some(1)
    case WaitingForUser => None
  }

  datatype Run = Run(status: Status, fs: Fs, trace: seq<Effect>)

  /** What the run knows once the config is loaded, the folder found and the newest tag fetched. */
  datatype Context = Context(conf: Config, gamePath: string, latest: string)

  /**
   * The part of `main` before the version check: on success the config is
   * the one loaded, the folder is the one `getGamePath` resolved and the tag
   * is the feed's; the early exits change nothing and save nothing, and a
   * failed picker is fatal.
   */
  function Prepare(fs: Fs, flags: Flags, io: Io): (r: Result<Context, Run>)
    ensures r.Ok? ==> && LoadConfig(io.configFile) == Ok(r.value.conf)
                      && GetGamePath(fs, flags, r.value.conf, io.registry, io.picks) == Resolved(r.value.gamePath)
                      && ValidGamePath(fs, r.value.gamePath)
                      && io.latest == Ok(r.value.latest)
    ensures LoadConfig(io.configFile).Ok?
            && GetGamePath(fs, flags, LoadConfig(io.configFile).value, io.registry, io.picks).ExitWithError? ==>
              r.Err? && r.error.status.Failed?
    ensures r.Err? ==> r.error.fs == fs && r.error.trace == [] && !r.error.status.Completed?
    ensures LoadConfig(io.configFile).Ok?
            && GetGamePath(fs, flags, LoadConfig(io.configFile).value, io.registry, io.picks) == ExitQuietly ==>
              r == Err(Run(Quit, fs, []))
    ensures r.Err? && r.error.status.Quit? ==>
              LoadConfig(io.configFile).Ok?
              && GetGamePath(fs, flags, LoadConfig(io.configFile).value, io.registry, io.picks) == ExitQuietly
  {
    match LoadConfig(io.configFile)
    case Err(message) => Err(Run(Failed(ConfigUndecodable(message)), fs, []))
    case Ok(conf) =>
      match GetGamePath(fs, flags, conf, io.registry, io.picks)
      case ExitQuietly => Err(Run(Quit, fs, []))
      case ExitWithError(message) => Err(Run(Failed(PickerFailed(message)), fs, []))
      case AwaitingUser => Err(Run(WaitingForUser, fs, []))
      case Resolved(gamePath) =>
        match io.latest
        case Err(message) => Err(Run(Failed(LatestUnknown(message)), fs, []))
        case Ok(latest) => Ok(Context(conf, gamePath, latest))
  }

  /** The three ways `main` goes once it knows the newest tag, plus the unreadable marker. */
  datatype Plan = FreshInstall | AlreadyCurrent | Update | CannotReadMarker

  function Decide(fs: Fs, gamePath: string, latest: string): (plan: Plan)
    ensures plan == FreshInstall <==> !Exists(fs, MarkerPath(gamePath))
    ensures plan == AlreadyCurrent <==> MarkerPath(gamePath) in fs && fs[MarkerPath(gamePath)] == File(latest)
    ensures plan == Update <==> MarkerPath(gamePath) in fs && fs[MarkerPath(gamePath)].File?
                                && fs[MarkerPath(gamePath)].content != latest
  {
    var marker := MarkerPath(gamePath);
    if !Exists(fs, marker) then FreshInstall
    else
      match fs[marker]
      case Dir => CannotReadMarker
      case File(installed) => if installed == latest then AlreadyCurrent else Update
  }

  /**
   * `writeConfig` followed by a normal exit: the run completes exactly when
   * the config could be written, and then writing it is its last effect.
   * Writing the config never touches the game folder.
   */
  function SaveConfig(fs: Fs, trace: seq<Effect>, saved: Config, io: Io): (r: Run)
    ensures r.status.Completed? || r.status.Failed?
    ensures r.fs == fs
    ensures r.status.Completed? <==> io.configWriteError.None?
    ensures r.status.Completed? ==> r.trace == trace + [WroteConfig(saved)]
    ensures !r.status.Completed? ==> r.trace == trace
    ensures r.status.Failed? ==> r.status.error.ConfigNotSaved?
  {
    match io.configWriteError
    case Some(message) => Run(Failed(ConfigNotSaved(message)), fs, trace)
    case None => Run(Completed, fs, trace + [WroteConfig(saved)])
  }

  /** An install step followed, when it worked, by saving the config. */
  function AfterInstall(before: seq<Effect>, step: Step, saved: Config, io: Io): (r: Run)
    ensures r.status.Completed? || r.status.Failed?
    ensures r.status.Failed? ==> r.status.error.InstallFailed? || r.status.error.ConfigNotSaved?
    ensures r.fs == step.fs
    ensures r.status.Completed? ==> step.failure.None? && |r.trace| > 0 && r.trace[|r.trace| - 1] == WroteConfig(saved)
  {
    match step.failure
    case Some(failure) => Run(Failed(InstallFailed(failure)), step.fs, before + step.trace)
    case None => SaveConfig(step.fs, before + step.trace, saved, io)
  }

  /**
   * `main`, from `flag.Parse` to the exit. A normal end needs a loaded
   * config, a game folder and the newest tag; a cancelled picker ends the run
   * before anything is touched.
   */
  function Main(fs: Fs, flags: Flags, io: Io): (r: Run)
    ensures r.status.Completed? ==> Prepare(fs, flags, io).Ok?
    ensures r.status.Quit? ==> r.trace == [] && r.fs == fs
  {
    match Prepare(fs, flags, io)
    case Err(early) => early
    case Ok(ctx) => Proceed(fs, flags, io, ctx)
  }

  /**
   * The rest of `main` once the newest tag is known: branch on the marker.
   * It always ends, normally or with an error, and never on reading or
   * decoding the config file.
   */
  function Proceed(fs: Fs, flags: Flags, io: Io, ctx: Context): (r: Run)
    ensures !r.status.Quit? && !r.status.WaitingForUser?
    ensures r.status.Failed? ==> !r.status.error.ConfigUndecodable?
  {
    match Decide(fs, ctx.gamePath, ctx.latest)
    case CannotReadMarker => Run(Failed(MarkerUnreadable), fs, [])
    case FreshInstall => FreshRun(fs, flags, io, ctx)
    case AlreadyCurrent =>
      SaveConfig(fs, StartOrAsk(EffectiveAutostart(flags, ctx.conf), UpToDateMessage(ctx.latest), io.startNow),
                 SavedConfig(flags, ctx.conf, ctx.gamePath), io)
    case Update => UpdateRun(fs, flags, io, ctx)
  }

  ghost predicate Downloads(trace: seq<Effect>)
  {
    exists i :: 0 <= i < |trace| && (trace[i].Requested? || trace[i].Unpacked?)
  }

  ghost predicate Cleans(trace: seq<Effect>)
  {
    exists i :: 0 <= i < |trace| && trace[i].CleanedUp?
  }

  /** The shape of a run after an install step: its effects follow the step's, then the config is saved. */
  lemma AfterInstallShape(before: seq<Effect>, step: Step, saved: Config, io: Io)
    ensures var r := AfterInstall(before, step, saved, io);
            && r.fs == step.fs
            && (r.status.Completed? <==> step.failure.None? && io.configWriteError.None?)
            && (r.status.Completed? ==> r.trace == before + step.trace + [WroteConfig(saved)])
            && (!r.status.Completed? ==> r.trace == before + step.trace)
  {
  }

  /** The run with the fresh-install branch taken: clean the folder, then install. */
  function FreshRun(fs: Fs, flags: Flags, io: Io, ctx: Context): (r: Run)
    ensures r.status.Completed? || r.status.Failed?
    ensures r.status.Failed? ==> r.status.error.InstallFailed? || r.status.error.ConfigNotSaved?
    ensures r.status.Completed? ==>
              && |r.trace| > 0
              && r.trace[|r.trace| - 1] == WroteConfig(SavedConfig(flags, ctx.conf, ctx.gamePath))
              && MarkerPath(ctx.gamePath) in r.fs && r.fs[MarkerPath(ctx.gamePath)] == File(ctx.latest)
  {
    AfterInstall([CleanedUp(ctx.gamePath)],
                 DownloadAndExtractRelease(Cleanup(fs, ctx.gamePath), ctx.gamePath, ctx.latest,
                                           EffectiveAutostart(flags, ctx.conf), io.install, io.startNow),
                 SavedConfig(flags, ctx.conf, ctx.gamePath), io)
  }

  /** The run with the update branch taken: install over the folder as it is. */
  function UpdateRun(fs: Fs, flags: Flags, io: Io, ctx: Context): (r: Run)
    ensures r.status.Completed? || r.status.Failed?
    ensures r.status.Failed? ==> r.status.error.InstallFailed? || r.status.error.ConfigNotSaved?
    ensures r.status.Completed? ==>
              && |r.trace| > 0
              && r.trace[|r.trace| - 1] == WroteConfig(SavedConfig(flags, ctx.conf, ctx.gamePath))
              && MarkerPath(ctx.gamePath) in r.fs && r.fs[MarkerPath(ctx.gamePath)] == File(ctx.latest)
  {
    AfterInstall([],
                 DownloadAndExtractRelease(fs, ctx.gamePath, ctx.latest,
                                           EffectiveAutostart(flags, ctx.conf), io.install, io.startNow),
                 SavedConfig(flags, ctx.conf, ctx.gamePath), io)
  }

  lemma MainBranches(fs: Fs, flags: Flags, io: Io, ctx: Context)
    requires Prepare(fs, flags, io) == Ok(ctx)
    ensures Decide(fs, ctx.gamePath, ctx.latest) == FreshInstall ==> Main(fs, flags, io) == FreshRun(fs, flags, io, ctx)
    ensures Decide(fs, ctx.gamePath, ctx.latest) == Update ==> Main(fs, flags, io) == UpdateRun(fs, flags, io, ctx)
    ensures Decide(fs, ctx.gamePath, ctx.latest) == AlreadyCurrent ==>
              Main(fs, flags, io) == SaveConfig(fs, StartOrAsk(EffectiveAutostart(flags, ctx.conf), UpToDateMessage(ctx.latest), io.startNow),
                                                SavedConfig(flags, ctx.conf, ctx.gamePath), io)
    ensures Decide(fs, ctx.gamePath, ctx.latest) == CannotReadMarker ==>
              Main(fs, flags, io) == Run(Failed(MarkerUnreadable), fs, [])
  {
  }

  /** An install step preceded by a cleanup, whatever the step did. */
  lemma CleanedInstallShape(gamePath: string, step: Step, saved: Config, io: Io)
    requires |step.trace| > 0
    requires forall i :: 0 <= i < |step.trace| ==> !step.trace[i].CleanedUp?
    ensures var r := AfterInstall([CleanedUp(gamePath)], step, saved, io);
            && |r.trace| >= 2
            && r.trace[0] == CleanedUp(gamePath)
            && r.trace[1] == step.trace[0]
            && forall i :: 0 < i < |r.trace| ==> !r.trace[i].CleanedUp?
  {
    AfterInstallShape([CleanedUp(gamePath)], step, saved, io);
  }

  lemma FreshRunShape(fs: Fs, flags: Flags, io: Io, ctx: Context)
    ensures var r := FreshRun(fs, flags, io, ctx);
            && |r.trace| >= 2
            && r.trace[0] == CleanedUp(ctx.gamePath)
            && r.trace[1] == Requested(ReleaseUrl(ctx.latest), ZipPath(ctx.gamePath, ctx.latest))
            && forall i :: 0 < i < |r.trace| ==> !r.trace[i].CleanedUp?
  {
    var cleaned := Cleanup(fs, ctx.gamePath);
    var autostart := EffectiveAutostart(flags, ctx.conf);
    var step := DownloadAndExtractRelease(cleaned, ctx.gamePath, ctx.latest, autostart, io.install, io.startNow);
    InstallTraceFacts(cleaned, ctx.gamePath, ctx.latest, autostart, io.install, io.startNow);
    CleanedInstallShape(ctx.gamePath, step, SavedConfig(flags, ctx.conf, ctx.gamePath), io);
  }

  /**
   * No marker: the game folder is cleaned first, and the download comes right
   * after; the release is installed on the cleaned folder.
   */
  lemma FreshInstallCleansFirst(fs: Fs, flags: Flags, io: Io, ctx: Context)
    requires Prepare(fs, flags, io) == Ok(ctx)
    requires !Exists(fs, MarkerPath(ctx.gamePath))
    ensures var r := Main(fs, flags, io);
            && |r.trace| >= 2
            && r.trace[0] == CleanedUp(ctx.gamePath)
            && r.trace[1] == Requested(ReleaseUrl(ctx.latest), ZipPath(ctx.gamePath, ctx.latest))
            && forall i :: 0 < i < |r.trace| ==> !r.trace[i].CleanedUp?
    ensures Main(fs, flags, io).fs
            == DownloadAndExtractRelease(Cleanup(fs, ctx.gamePath), ctx.gamePath, ctx.latest,
                                         EffectiveAutostart(flags, ctx.conf), io.install, io.startNow).fs
  {
    MainBranches(fs, flags, io, ctx);
    FreshRunShape(fs, flags, io, ctx);
  }

  /**
   * No marker: old content of a non-kept top-level entry is gone after the
   * run, unless the extraction, complete or broken off, writes that very path
   * or creates a folder there on the way to one of its entries.
   */
  lemma FreshInstallDropsOldContent(fs: Fs, flags: Flags, io: Io, ctx: Context, k: string)
    requires Prepare(fs, flags, io) == Ok(ctx)
    requires !Exists(fs, MarkerPath(ctx.gamePath))
    requires Doomed(fs, ctx.gamePath, ToSkip, k)
    requires k != ZipPath(ctx.gamePath, ctx.latest) && k != MarkerPath(ctx.gamePath)
    requires k !in Touched(ctx.gamePath, io.install.extraction)
    ensures k !in Main(fs, flags, io).fs
  {
    FreshInstallCleansFirst(fs, flags, io, ctx);
    InstallKeepsOthers(Cleanup(fs, ctx.gamePath), ctx.gamePath, ctx.latest, EffectiveAutostart(flags, ctx.conf),
                       io.install, io.startNow, k);
  }

  /**
   * Marker equal to the newest tag: nothing is cleaned, downloaded or
   * unpacked, the folder is left alone, and the game starts exactly when
   * autostart is in effect or the user says yes.
   */
  lemma UpToDateSkipsInstall(fs: Fs, flags: Flags, io: Io, ctx: Context)
    requires Prepare(fs, flags, io) == Ok(ctx)
    requires MarkerPath(ctx.gamePath) in fs && fs[MarkerPath(ctx.gamePath)] == File(ctx.latest)
    ensures var r := Main(fs, flags, io);
            && r.fs == fs
            && !Cleans(r.trace) && !Downloads(r.trace)
            && (LaunchedGame in r.trace <==> EffectiveAutostart(flags, ctx.conf) || io.startNow)
            && (AskedToStart(UpToDateMessage(ctx.latest)) in r.trace <==> !EffectiveAutostart(flags, ctx.conf))
  {
  }

  /** Marker naming another version: the release is installed over the folder without a cleanup. */
  lemma UpdateSkipsCleanup(fs: Fs, flags: Flags, io: Io, ctx: Context)
    requires Prepare(fs, flags, io) == Ok(ctx)
    requires MarkerPath(ctx.gamePath) in fs && fs[MarkerPath(ctx.gamePath)].File?
    requires fs[MarkerPath(ctx.gamePath)].content != ctx.latest
    ensures var r := Main(fs, flags, io);
            && !Cleans(r.trace)
            && |r.trace| > 0 && r.trace[0] == Requested(ReleaseUrl(ctx.latest), ZipPath(ctx.gamePath, ctx.latest))
  {
    MainBranches(fs, flags, io, ctx);
    UpdateRunShape(fs, flags, io, ctx);
  }

  /**
   * Marker naming another version: anything in the folder that the
   * extraction does not write or create a folder at is still there afterwards
   * with its old content, whether or not the install succeeds.
   */
  lemma UpdateKeepsOldContent(fs: Fs, flags: Flags, io: Io, ctx: Context, k: string)
    requires Prepare(fs, flags, io) == Ok(ctx)
    requires MarkerPath(ctx.gamePath) in fs && fs[MarkerPath(ctx.gamePath)].File?
    requires fs[MarkerPath(ctx.gamePath)].content != ctx.latest
    requires k in fs && k != ZipPath(ctx.gamePath, ctx.latest) && k != MarkerPath(ctx.gamePath)
    requires k !in Touched(ctx.gamePath, io.install.extraction)
    ensures k in Main(fs, flags, io).fs && Main(fs, flags, io).fs[k] == fs[k]
  {
    MainBranches(fs, flags, io, ctx);
    InstallKeepsOthers(fs, ctx.gamePath, ctx.latest, EffectiveAutostart(flags, ctx.conf), io.install, io.startNow, k);
  }

  lemma UpdateRunShape(fs: Fs, flags: Flags, io: Io, ctx: Context)
    ensures var r := UpdateRun(fs, flags, io, ctx);
            && !Cleans(r.trace)
            && |r.trace| > 0 && r.trace[0] == Requested(ReleaseUrl(ctx.latest), ZipPath(ctx.gamePath, ctx.latest))
  {
    var step := DownloadAndExtractRelease(fs, ctx.gamePath, ctx.latest,
                                          EffectiveAutostart(flags, ctx.conf), io.install, io.startNow);
    AfterInstallShape([], step, SavedConfig(flags, ctx.conf, ctx.gamePath), io);
    InstallTraceFacts(fs, ctx.gamePath, ctx.latest, EffectiveAutostart(flags, ctx.conf), io.install, io.startNow);
  }

  /**
   * Once past the version check, a run that ends normally has saved the
   * merged config as its last step and its marker names the newest release.
   */
  lemma CompletedRunSavesConfig(fs: Fs, flags: Flags, io: Io, ctx: Context)
    requires Prepare(fs, flags, io) == Ok(ctx)
    ensures var r := Main(fs, flags, io);
            r.status.Completed? ==>
            && |r.trace| > 0
            && r.trace[|r.trace| - 1] == WroteConfig(SavedConfig(flags, ctx.conf, ctx.gamePath))
            && MarkerPath(ctx.gamePath) in r.fs && r.fs[MarkerPath(ctx.gamePath)] == File(ctx.latest)
  {
    assert Main(fs, flags, io) == Proceed(fs, flags, io, ctx);
    ProceedCompletedSavesConfig(fs, flags, io, ctx);
  }

  /**
   * Past the version check, a run that ends normally has saved the merged
   * config as its last step and leaves the marker naming the newest release.
   */
  lemma ProceedCompletedSavesConfig(fs: Fs, flags: Flags, io: Io, ctx: Context)
    ensures var r := Proceed(fs, flags, io, ctx);
            r.status.Completed? ==>
              && |r.trace| > 0
              && r.trace[|r.trace| - 1] == WroteConfig(SavedConfig(flags, ctx.conf, ctx.gamePath))
              && MarkerPath(ctx.gamePath) in r.fs && r.fs[MarkerPath(ctx.gamePath)] == File(ctx.latest)
  {
    var plan := Decide(fs, ctx.gamePath, ctx.latest);
    if plan == FreshInstall {
      assert Proceed(fs, flags, io, ctx) == FreshRun(fs, flags, io, ctx);
    } else if plan == Update {
      assert Proceed(fs, flags, io, ctx) == UpdateRun(fs, flags, io, ctx);
    }
  }

  /**
   * Past the version check a run ends normally exactly when the marker could
   * be read, the install it needs (if any) succeeds and the config is written.
   */
  lemma RunCompletesWhenStepsSucceed(fs: Fs, flags: Flags, io: Io, ctx: Context)
    requires Prepare(fs, flags, io) == Ok(ctx)
    ensures var plan := Decide(fs, ctx.gamePath, ctx.latest);
            Main(fs, flags, io).status.Completed? <==>
              && plan != CannotReadMarker
              && (plan == AlreadyCurrent || InstallSucceeds(io.install))
              && io.configWriteError.None?
  {
    MainBranches(fs, flags, io, ctx);
    var autostart := EffectiveAutostart(flags, ctx.conf);
    var saved := SavedConfig(flags, ctx.conf, ctx.gamePath);
    var plan := Decide(fs, ctx.gamePath, ctx.latest);
    if plan == FreshInstall {
      AfterInstallShape([CleanedUp(ctx.gamePath)],
                        DownloadAndExtractRelease(Cleanup(fs, ctx.gamePath), ctx.gamePath, ctx.latest, autostart,
                                                  io.install, io.startNow), saved, io);
    } else if plan == Update {
      AfterInstallShape([], DownloadAndExtractRelease(fs, ctx.gamePath, ctx.latest, autostart, io.install, io.startNow),
                        saved, io);
    }
  }

  lemma AfterInstallSavesOnlyOnCompletion(before: seq<Effect>, step: Step, saved: Config, io: Io)
    requires forall i :: 0 <= i < |before| ==> !before[i].WroteConfig?
    requires forall i :: 0 <= i < |step.trace| ==> !step.trace[i].WroteConfig?
    ensures var r := AfterInstall(before, step, saved, io);
            !r.status.Completed? ==> forall i :: 0 <= i < |r.trace| ==> !r.trace[i].WroteConfig?
  {
    AfterInstallShape(before, step, saved, io);
  }

  lemma FreshRunSavesOnlyOnCompletion(fs: Fs, flags: Flags, io: Io, ctx: Context)
    ensures var r := FreshRun(fs, flags, io, ctx);
            !r.status.Completed? ==> forall i :: 0 <= i < |r.trace| ==> !r.trace[i].WroteConfig?
  {
    var fs1 := Cleanup(fs, ctx.gamePath);
    var autostart := EffectiveAutostart(flags, ctx.conf);
    InstallTraceFacts(fs1, ctx.gamePath, ctx.latest, autostart, io.install, io.startNow);
    var step := DownloadAndExtractRelease(fs1, ctx.gamePath, ctx.latest, autostart, io.install, io.startNow);
    AfterInstallSavesOnlyOnCompletion([CleanedUp(ctx.gamePath)], step, SavedConfig(flags, ctx.conf, ctx.gamePath), io);
  }

  lemma UpdateRunSavesOnlyOnCompletion(fs: Fs, flags: Flags, io: Io, ctx: Context)
    ensures var r := UpdateRun(fs, flags, io, ctx);
            !r.status.Completed? ==> forall i :: 0 <= i < |r.trace| ==> !r.trace[i].WroteConfig?
  {
    var autostart := EffectiveAutostart(flags, ctx.conf);
    InstallTraceFacts(fs, ctx.gamePath, ctx.latest, autostart, io.install, io.startNow);
    var step := DownloadAndExtractRelease(fs, ctx.gamePath, ctx.latest, autostart, io.install, io.startNow);
    AfterInstallSavesOnlyOnCompletion([], step, SavedConfig(flags, ctx.conf, ctx.gamePath), io);
  }

  /** Only a run that ends normally writes the config. */
  lemma OnlyCompletedRunSavesConfig(fs: Fs, flags: Flags, io: Io)
    requires !Main(fs, flags, io).status.Completed?
    ensures forall i :: 0 <= i < |Main(fs, flags, io).trace| ==> !Main(fs, flags, io).trace[i].WroteConfig?
  {
    if Prepare(fs, flags, io).Ok? {
      var ctx := Prepare(fs, flags, io).value;
      MainBranches(fs, flags, io, ctx);
      var plan := Decide(fs, ctx.gamePath, ctx.latest);
      if plan == FreshInstall {
        FreshRunSavesOnlyOnCompletion(fs, flags, io, ctx);
      } else if plan == Update {
        UpdateRunSavesOnlyOnCompletion(fs, flags, io, ctx);
      }
    }
  }

  /** Runs that stop before the version check change nothing and save nothing. */
  lemma EarlyExitChangesNothing(fs: Fs, flags: Flags, io: Io)
    requires Prepare(fs, flags, io).Err?
    ensures Main(fs, flags, io).fs == fs && Main(fs, flags, io).trace == []
    ensures !Main(fs, flags, io).status.Completed?
  {
  }

  /** Cancelling the picker ends the run with exit status 0, and it happens only on a cancelled pick. */
  lemma CancelExitsCleanly(fs: Fs, flags: Flags, io: Io)
    requires Main(fs, flags, io).status.Quit?
    ensures ExitCode(Main(fs, flags, io).status) == Some(0)
    ensures Main(fs, flags, io).trace == [] && Main(fs, flags, io).fs == fs
    ensures exists i :: 0 <= i < |io.picks| && io.picks[i] == Dismissed(Cancelled)
  {
    QuitOnlyBeforeVersionCheck(fs, flags, io);
    QuietExitOnlyOnCancel(fs, flags, LoadConfig(io.configFile).value, io.registry, io.picks);
  }

  /**
   * When the flag, the remembered path and the Steam location all fail and
   * the user cancels the picker after rejected folders only, the run exits
   * with status 0 and touches nothing.
   */
  lemma CancelledPickerQuits(fs: Fs, flags: Flags, io: Io, i: int)
    requires LoadConfig(io.configFile).Ok?
    requires AllRejected(fs, AutomaticCandidates(flags, LoadConfig(io.configFile).value, io.registry))
    requires 0 <= i < |io.picks| && io.picks[i] == Dismissed(Cancelled) && AllRejected(fs, io.picks[..i])
    ensures Main(fs, flags, io) == Run(Quit, fs, [])
    ensures ExitCode(Main(fs, flags, io).status) == Some(0)
  {
    var conf := LoadConfig(io.configFile).value;
    var c := AutomaticCandidates(flags, conf, io.registry);
    var all := c + io.picks;
    assert all[..|c| + i] == c + io.picks[..i];
    assert all[|c| + i] == io.picks[i];
    FirstStopDecides(fs, all, |c| + i);
    ResolutionIsFirstValid(fs, flags, conf, io.registry, io.picks);
  }

  lemma QuitOnlyBeforeVersionCheck(fs: Fs, flags: Flags, io: Io)
    requires Main(fs, flags, io).status.Quit?
    ensures Prepare(fs, flags, io) == Err(Run(Quit, fs, []))
    ensures LoadConfig(io.configFile).Ok?
    ensures GetGamePath(fs, flags, LoadConfig(io.configFile).value, io.registry, io.picks) == ExitQuietly
  {
  }

  /** Of all the ways the config file can go wrong, only contents that do not decode are fatal. */
  lemma ConfigFatalOnlyOnDecode(fs: Fs, flags: Flags, io: Io, message: string)
    ensures Main(fs, flags, io).status == Failed(ConfigUndecodable(message)) <==>
              io.configFile == Contents(Err(message))
  {
  }

  /** A config file that cannot be read, for whatever reason, behaves exactly like an empty config. */
  lemma UnreadableConfigActsAsEmpty(fs: Fs, flags: Flags, io: Io)
    requires io.configFile == Unreadable
    ensures Main(fs, flags, io) == Main(fs, flags, io.(configFile := Contents(Ok(EmptyConfig))))
  {
    var io' := io.(configFile := Contents(Ok(EmptyConfig)));
    assert Prepare(fs, flags, io) == Prepare(fs, flags, io');
    if Prepare(fs, flags, io).Ok? {
      ProceedIgnoresConfigFile(fs, flags, io, io', Prepare(fs, flags, io).value);
    }
  }

  /** Past the version check the config file plays no further part. */
  lemma ProceedIgnoresConfigFile(fs: Fs, flags: Flags, io: Io, io': Io, ctx: Context)
    requires io' == io.(configFile := io'.configFile)
    ensures Proceed(fs, flags, io, ctx) == Proceed(fs, flags, io', ctx)
  {
    FreshRunIgnoresConfigFile(fs, flags, io, io', ctx);
    UpdateRunIgnoresConfigFile(fs, flags, io, io', ctx);
  }

  lemma FreshRunIgnoresConfigFile(fs: Fs, flags: Flags, io: Io, io': Io, ctx: Context)
    requires io' == io.(configFile := io'.configFile)
    ensures FreshRun(fs, flags, io, ctx) == FreshRun(fs, flags, io', ctx)
  {
    assert io.install == io'.install && io.startNow == io'.startNow && io.configWriteError == io'.configWriteError;
  }

  lemma UpdateRunIgnoresConfigFile(fs: Fs, flags: Flags, io: Io, io': Io, ctx: Context)
    requires io' == io.(configFile := io'.configFile)
    ensures UpdateRun(fs, flags, io, ctx) == UpdateRun(fs, flags, io', ctx)
  {
    assert io.install == io'.install && io.startNow == io'.startNow && io.configWriteError == io'.configWriteError;
  }
}

=== FILE: path_resolver.dfy ===
/**
 * Finding the game folder: the `--gamePath` flag, then the path remembered in
 * the config, then the Steam install location from the registry, then a
 * directory picker that keeps asking until it gets a folder holding the game.
 */
module PathResolver {
  import opened Common
  import opened FileTree
  import opened Settings

  const GameExe: string := "Among Us.exe"
  const InstallPathValue: string := "InstallPath"
  const SteamLibrarySuffix: string := "\\steamapps\\common\\Among Us"

  /**
   * `validateGamePath`: the game executable exists directly inside `path`,
   * i.e. `os.Stat` succeeds on `path + "\Among Us.exe"`, even for the empty path.
   */
  predicate ValidGamePath(fs: Fs, path: string): (valid: bool)
    ensures valid <==> path + "\\Among Us.exe" in fs
  {
    assert [Sep] + GameExe == "\\Among Us.exe";
    assert Join(path, GameExe) == path + "\\Among Us.exe";
    Exists(fs, Join(path, GameExe))
  }

  /** A registry key opened for reading: its string values by name. */
  datatype RegistryKey = RegistryKey(values: map<string, string>)

  /**
   * The two Steam keys under HKEY_LOCAL_MACHINE the installer tries:
   * `SOFTWARE\WOW6432Node\Valve\Steam` and `SOFTWARE\Valve\Steam`; None when
   * `registry.OpenKey` fails.
   */
  datatype Registry = Registry(wow6432: Option<RegistryKey>, native: Option<RegistryKey>)

  datatype AutoError =
    | SteamKeyMissing
    | InstallPathMissing
    | NotBesideSteam(candidate: string)

  /** The key `getGamePathAuto` reads: the WOW6432Node one whenever it opens. */
  function SteamKey(reg: Registry): (key: Option<RegistryKey>)
  {
    if reg.wow6432.Some? then reg.wow6432 else reg.native
  }

  /** The folder Steam installs the game in, for a Steam install root. */
  function SteamGamePath(steamPath: string): (p: string)
    ensures |p| == |steamPath| + |SteamLibrarySuffix|
    ensures p[..|steamPath|] == steamPath && p[|steamPath|..] == SteamLibrarySuffix
  {
    steamPath + SteamLibrarySuffix
  }

  /**
   * `getGamePathAuto`: the game folder next to the Steam install root, if it
   * holds the game.
   */
  function GetGamePathAuto(fs: Fs, reg: Registry): (r: Result<string, AutoError>)
    ensures r.Ok? ==> ValidGamePath(fs, r.value)
    ensures r.Ok? <==> SteamKey(reg).Some? && InstallPathValue in SteamKey(reg).value.values
                       && ValidGamePath(fs, SteamGamePath(SteamKey(reg).value.values[InstallPathValue]))
  {
    match SteamKey(reg)
    case None => Err(SteamKeyMissing)
    case Some(key) =>
      if InstallPathValue !in key.values then Err(InstallPathMissing)
      else
        var gamePath := SteamGamePath(key.values[InstallPathValue]);
        if !ValidGamePath(fs, gamePath) then Err(NotBesideSteam(gamePath)) else Ok(gamePath)
  }

  /**
   * Once the WOW6432Node key opens, the native key is never consulted, even
   * when the first key lacks `InstallPath` or points at the wrong place.
   */
  lemma AutoPrefersWow6432(fs: Fs, key: RegistryKey, native: Option<RegistryKey>, native': Option<RegistryKey>)
    ensures GetGamePathAuto(fs, Registry(Some(key), native)) == GetGamePathAuto(fs, Registry(Some(key), native'))
  {
  }

  /**
   * The native key is read when the WOW6432Node key does not open: detection
   * then succeeds exactly when the folder next to its `InstallPath` holds the
   * game, and returns that folder.
   */
  lemma AutoFallsBackToNative(fs: Fs, native: Option<RegistryKey>)
    requires native.Some? && InstallPathValue in native.value.values
    ensures var steamPath := native.value.values[InstallPathValue];
            GetGamePathAuto(fs, Registry(None, native)).Ok? <==> ValidGamePath(fs, steamPath + SteamLibrarySuffix)
    ensures var steamPath := native.value.values[InstallPathValue];
            GetGamePathAuto(fs, Registry(None, native)).Ok? ==>
              GetGamePathAuto(fs, Registry(None, native)).value == steamPath + SteamLibrarySuffix
  {
  }

  /** The two ways the directory picker can end without a folder. */
  datatype DialogError = Cancelled | DialogFailed(message: string)

  /** One answer to the directory picker. */
  datatype Pick = Chose(dir: string) | Dismissed(error: DialogError)

  /**
   * Where the picker loop stands after the answers given: a valid folder, an
   * error that ends it, or still asking because every folder chosen was
   * rejected.
   */
  datatype Prompting = Picked(dir: string) | Stopped(error: DialogError) | StillAsking

  /** Every answer chose a folder and none of them holds the game. */
  ghost predicate AllRejected(fs: Fs, picks: seq<Pick>)
  {
    forall j :: 0 <= j < |picks| ==> picks[j].Chose? && !ValidGamePath(fs, picks[j].dir)
  }

  /**
   * `getGamePathManual`: ask, and ask again while the answer is a folder
   * without the game. The result is decided by the first answer that is
   * either a valid folder or an error; with no such answer the loop is still
   * waiting on the user.
   */
  function GetGamePathManual(fs: Fs, picks: seq<Pick>): (r: Prompting)
    ensures r.Picked? ==> ValidGamePath(fs, r.dir)
    ensures r.StillAsking? <==> AllRejected(fs, picks)
    ensures r.Picked? ==> exists i :: 0 <= i < |picks| && picks[i] == Chose(r.dir) && AllRejected(fs, picks[..i])
    ensures r.Stopped? ==> exists i :: 0 <= i < |picks| && picks[i] == Dismissed(r.error) && AllRejected(fs, picks[..i])
    decreases |picks|
  {
    if picks == [] then StillAsking
    else
      match picks[0]
      case Dismissed(e) =>
        assert AllRejected(fs, picks[..0]);
        Stopped(e)
      case Chose(dir) =>
        if ValidGamePath(fs, dir) then
          assert AllRejected(fs, picks[..0]);
          Picked(dir)
        else
          var r := GetGamePathManual(fs, picks[1..]);
          assert AllRejected(fs, picks) <==> AllRejected(fs, picks[1..]);
          assert forall i :: 0 <= i < |picks| - 1 && AllRejected(fs, picks[1..][..i]) ==>
                               AllRejected(fs, picks[..i + 1]) && picks[i + 1] == picks[1..][i] by {
            forall i | 0 <= i < |picks| - 1 && AllRejected(fs, picks[1..][..i])
              ensures AllRejected(fs, picks[..i + 1]) && picks[i + 1] == picks[1..][i]
            {
              assert picks[..i + 1] == [picks[0]] + picks[1..][..i];
            }
          }
          r
  }

  /**
   * The converse of the stopping case of `GetGamePathManual`: an error
   * answer after folders that were all rejected decides the loop.
   */
  lemma {:induction false} FirstStopDecides(fs: Fs, picks: seq<Pick>, i: int)
    requires 0 <= i < |picks| && picks[i].Dismissed? && AllRejected(fs, picks[..i])
    ensures GetGamePathManual(fs, picks) == Stopped(picks[i].error)
    decreases i
  {
    if i > 0 {
      assert picks[0] == picks[..i][0];
      assert picks[1..][..i - 1] == picks[..i][1..];
      FirstStopDecides(fs, picks[1..], i - 1);
    }
  }

  /** How path resolution ends. */
  datatype Resolution =
    | Resolved(path: string)
    | ExitQuietly                       // the picker was cancelled: exit status 0
    | ExitWithError(message: string)    // the picker failed: error dialog, exit status 1
    | AwaitingUser

  /**
   * `getGamePath`: the flag path if it holds the game, else the remembered
   * path if there is one and it holds the game, else the Steam location if
   * detection succeeds, else whatever the picker loop ends with.
   */
  function GetGamePath(fs: Fs, flags: Flags, conf: Config, reg: Registry, picks: seq<Pick>): (r: Resolution)
    ensures r.Resolved? ==> ValidGamePath(fs, r.path)
    ensures ValidGamePath(fs, flags.gamePath) ==> r == Resolved(flags.gamePath)
    ensures !ValidGamePath(fs, flags.gamePath) && conf.gamePath.Some? && ValidGamePath(fs, conf.gamePath.value)
            ==> r == Resolved(conf.gamePath.value)
    ensures !r.Resolved? ==> GetGamePathAuto(fs, reg).Err?
  {
    if ValidGamePath(fs, flags.gamePath) then Resolved(flags.gamePath)
    else if conf.gamePath.Some? && ValidGamePath(fs, conf.gamePath.value) then Resolved(conf.gamePath.value)
    else
      match GetGamePathAuto(fs, reg)
      case Ok(gamePath) => Resolved(gamePath)
      case Err(_) => FromPrompting(GetGamePathManual(fs, picks))
  }

  /**
   * How the picker loop's outcome ends resolution: a cancel is the quiet
   * exit, any other dialog error the fatal one.
   */
  function FromPrompting(p: Prompting): (r: Resolution)
    ensures r == ExitQuietly <==> p == Stopped(Cancelled)
    ensures r.ExitWithError? <==> p.Stopped? && p.error.DialogFailed?
    ensures r.Resolved? <==> p.Picked?
    ensures r == AwaitingUser <==> p == StillAsking
  {
    match p
    case Picked(dir) => Resolved(dir)
    case Stopped(Cancelled) => ExitQuietly
    case Stopped(DialogFailed(message)) => ExitWithError(message)
    case StillAsking => AwaitingUser
  }

  /**
   * The folders tried before the picker, in order: the flag, the remembered
   * path (if any) and the Steam location (if the registry names one).
   */
  function AutomaticCandidates(flags: Flags, conf: Config, reg: Registry): (c: seq<Pick>)
    ensures forall j :: 0 <= j < |c| ==> c[j].Chose?
  {
    var steam := SteamKey(reg);
    [Chose(flags.gamePath)]
    + (if conf.gamePath.Some? then [Chose(conf.gamePath.value)] else [])
    + (if steam.Some? && InstallPathValue in steam.value.values
       then [Chose(SteamGamePath(steam.value.values[InstallPathValue]))] else [])
  }

  /**
   * First success wins: resolution behaves as one picker loop whose first
   * answers are the flag, the remembered path and the Steam location.
   */
  lemma ResolutionIsFirstValid(fs: Fs, flags: Flags, conf: Config, reg: Registry, picks: seq<Pick>)
    ensures GetGamePath(fs, flags, conf, reg, picks)
            == FromPrompting(GetGamePathManual(fs, AutomaticCandidates(flags, conf, reg) + picks))
  {
    var steam := SteamKey(reg);
    var c1 := [Chose(flags.gamePath)];
    var c2 := if conf.gamePath.Some? then [Chose(conf.gamePath.value)] else [];
    var c3 := if steam.Some? && InstallPathValue in steam.value.values
              then [Chose(SteamGamePath(steam.value.values[InstallPathValue]))] else [];
    var all := c1 + c2 + c3 + picks;
    assert AutomaticCandidates(flags, conf, reg) + picks == all;
    if !ValidGamePath(fs, flags.gamePath) {
      assert all[1..] == c2 + c3 + picks;
      var rest := c2 + c3 + picks;
      if conf.gamePath.Some? && !ValidGamePath(fs, conf.gamePath.value) {
        assert rest[1..] == c3 + picks;
      }
      if !(conf.gamePath.Some? && ValidGamePath(fs, conf.gamePath.value)) {
        var tail := c3 + picks;
        assert GetGamePathManual(fs, rest) == GetGamePathManual(fs, tail);
        if c3 != [] && !ValidGamePath(fs, c3[0].dir) {
          assert tail[1..] == picks;
        }
      }
    }
  }

  /**
   * The path written back to the config is found again next time: if it
   * still holds the game, a later run whose flag path does not resolves to it.
   */
  lemma SavedPathResolves(fs: Fs, flags: Flags, conf: Config, gamePath: string,
                          later: Flags, reg: Registry, picks: seq<Pick>)
    requires ValidGamePath(fs, gamePath)
    requires !ValidGamePath(fs, later.gamePath)
    ensures GetGamePath(fs, later, SavedConfig(flags, conf, gamePath), reg, picks) == Resolved(gamePath)
  {
  }

  /** When answers that all choose a folder come first, an error that stops the loop comes from the rest. */
  lemma StopComesFromLaterAnswer(fs: Fs, pre: seq<Pick>, picks: seq<Pick>, e: DialogError)
    requires forall j :: 0 <= j < |pre| ==> pre[j].Chose?
    requires GetGamePathManual(fs, pre + picks) == Stopped(e)
    ensures exists i :: 0 <= i < |picks| && picks[i] == Dismissed(e)
  {
    var all := pre + picks;
    var i :| 0 <= i < |all| && all[i] == Dismissed(e) && AllRejected(fs, all[..i]);
    assert i >= |pre|;
    assert picks[i - |pre|] == all[i];
  }

  /** Resolution exits quietly only because the user cancelled the picker. */
  lemma QuietExitOnlyOnCancel(fs: Fs, flags: Flags, conf: Config, reg: Registry, picks: seq<Pick>)
    requires GetGamePath(fs, flags, conf, reg, picks) == ExitQuietly
    ensures exists i :: 0 <= i < |picks| && picks[i] == Dismissed(Cancelled)
  {
    ResolutionIsFirstValid(fs, flags, conf, reg, picks);
    StopComesFromLaterAnswer(fs, AutomaticCandidates(flags, conf, reg), picks, Cancelled);
  }
}

=== FILE: settings.dfy ===
/**
 * The persisted preferences and the command-line flags, and how a run merges
 * them: the autostart flag wins when it is given, and the config written back
 * keeps an explicit flag for the next run.
 */
module Settings {
  import opened Common

  /** The config file's two optional fields; a missing JSON field reads as None. */
  datatype Config = Config(autostart: Option<bool>, gamePath: Option<string>)

  const EmptyConfig: Config := Config(None, None)

  /**
   * The command line: `autostart` is None when `--autostart` was not passed,
   * `gamePath` is the `--gamePath` value, "" when it was not passed.
   */
  datatype Flags = Flags(autostart: Option<bool>, gamePath: string)

  /** `isFlagPassed("autostart")`. */
  predicate AutostartPassed(flags: Flags)
  {
    flags.autostart.Some?
  }

  /**
   * The value `*autostart` has once `main` has merged in the config: the flag
   * if it was passed, otherwise the stored preference, otherwise `false`.
   */
  function EffectiveAutostart(flags: Flags, conf: Config): (on: bool)
    ensures on <==> flags.autostart == Some(true) || (flags.autostart.None? && conf.autostart == Some(true))
  {
    if !AutostartPassed(flags) && conf.autostart.Some? then conf.autostart.value
    else flags.autostart.GetOr(false)
  }

  /**
   * The config `writeConfig` persists: the game path is always the one this
   * run resolved, the autostart field is replaced only by an explicit flag.
   */
  function SavedConfig(flags: Flags, conf: Config, gamePath: string): (saved: Config)
    ensures saved.gamePath == Some(gamePath)
    ensures saved.autostart == if AutostartPassed(flags) then flags.autostart else conf.autostart
  {
    var withPath := conf.(gamePath := Some(gamePath));
    if AutostartPassed(flags) then withPath.(autostart := flags.autostart) else withPath
  }

  /**
   * The preference sticks: a later run without `--autostart` that reads the
   * saved config behaves exactly as this run did.
   */
  lemma AutostartPersists(flags: Flags, conf: Config, gamePath: string, later: Flags)
    requires !AutostartPassed(later)
    ensures EffectiveAutostart(later, SavedConfig(flags, conf, gamePath)) == EffectiveAutostart(flags, conf)
  {
  }

  /** Saving is idempotent: a flagless run on the same path writes back the same config. */
  lemma SaveIdempotent(flags: Flags, conf: Config, gamePath: string, later: Flags)
    requires !AutostartPassed(later)
    ensures SavedConfig(later, SavedConfig(flags, conf, gamePath), gamePath) == SavedConfig(flags, conf, gamePath)
  {
  }

  /**
   * What reading the config file yields. Every error `ioutil.ReadFile`
   * returns is an `*os.PathError`: opening the file wraps its error as one,
   * and so does every read on the opened file. `Unreadable` covers all of them.
   */
  datatype ConfigFile =
    | Unreadable
    | Contents(decoded: Result<Config, string>)

  /**
   * `readConfig`: the defaults when the file cannot be read, whatever the
   * reason; a fatal error only when its contents do not decode.
   */
  function LoadConfig(file: ConfigFile): (r: Result<Config, string>)
    ensures r.Err? <==> file.Contents? && file.decoded.Err?
    ensures file.Unreadable? ==> r == Ok(EmptyConfig)
    ensures file.Contents? ==> r == file.decoded
  {
    match file
    case Unreadable => Ok(EmptyConfig)
    case Contents(decoded) => decoded
  }
}
